=== FILE: README.md ===
# StimaSense outage scrapers and trainer data path, in Dafny

This project models the pure, sequential logic of three programs in the
StimaSense repository and proves properties of that model:

- **The KPLC notice scraper** (`services/kplc/scraper/fetch_kplc_planned_outages.py`).
  This covers:
  - whitespace normalisation (`normalize_space`);
  - resolving anchor `href`s to absolute PDF URLs and dropping duplicate URLs (`extract_pdf_links_bs4`);
  - the line-driven record extractor for notice PDFs (`parse_pdf_for_outages`), with its `flush` rule, classifier priority and single fallback record;
  - the two capped coarse-record fallbacks (`parse_list_section_bs4`, `parse_with_regex`);
  - `merge_and_sort`: the last record per id wins, then a stable newest-first sort on `createdAt`.
- **The HTML-title scraper** (`src/services/kplc/scraper/fetch_kplc_planned_outages.py`).
  This covers `parse_datetime_range`, `normalize`, the per-title record construction in `fetch`, and its first-wins deduplication by id.
- **The data path of the outage-model trainer** (`src/services/prediction/train_from_parquet.py`, inside `main`).
  This covers:
  - adding missing feature columns as zeros;
  - deriving `target` from `outage_label`;
  - one left-padded window of `sequence_length` rows per row;
  - the chronological split of tabular rows, windows and labels at one index.

Modules:

| file | module | what |
|---|---|---|
| `wrappers.dfy` | `Wrappers` | `Option`, and `Collect`: the results of a partial per-item step, in order |
| `text.dfy` | `Text` | Python string primitives: `str.isspace`, `strip`, `re.sub(r"\s+", " ", s).strip()`, `s[:n]`, `in`, ASCII `lower`/`upper`, `split(sep)`, string `<` |
| `keyed.dfy` | `Keyed` | first-occurrence dedup by a key, as in a `seen` set loop (a function and a loop method), and dictionary assignment by key (last value wins, first insertion order) |
| `notice.dfy` | `Notice` | the outage record shared by both scrapers |
| `links.dfy` | `PdfLinks` | `href` resolution and the PDF link list |
| `extractor.dfy` | `PdfExtractor` | the PDF line scanner, a reference segmentation into blocks, and the fallback |
| `coarse.dfy` | `CoarseRecords` | the page-text and raw-HTML fallbacks |
| `merge.dfy` | `MergeSort` | `merge_and_sort` |
| `titles.dfy` | `TitleRecords` | the HTML-title scraper |
| `windows.dfy` | `Windowing` | sequence windows and the chronological split |
| `frame.dfy` | `Columns` | column defaulting, target derivation, rows and labels of the data frame |
| `training.dfy` | `Training` | the arrays `main` builds and splits |

Things outside the model are parameters:
- The regular expressions are functions returning the capture group the code reads.
- SHA-1 (`hash_id`) is a function `string -> string`.
- `strptime` followed by `isoformat` is a partial function.
- The clock is a timestamp string.
- BeautifulSoup's output is taken as the list of anchor `href`s, of text nodes, or of `article`/`div` texts.
- The PDF text is taken as the list of its lines.

Behaviour of the code worth noting:
- The `src` scraper keeps the *first* record per id (lines 101-110). It is `merge_and_sort` that keeps the last.
- The PDF extractor also emits a record for fields that appear before the first region line. Those lines form a block of their own with an empty region. So the structured records are one per block with a field (`PdfExtractor.StructuredIsRecordsOfBlocks`).
- The fallback fires whenever the structured scan found nothing and the line list is non-empty. Its region is the first normalised line, even when that line is blank. So text consisting only of whitespace lines still yields one fallback record, with an empty region.

## Model

| member | source | states |
|---|---|---|
| Text.NormalizeIsJoinOfWords | services/kplc/scraper/fetch_kplc_planned_outages.py:46-47 | `normalize_space(s)` equals `" ".join(s.split())`: every word of the input, in order, separated by single blanks |
| Text.NormalizeSpaceIsNormalized | services/kplc/scraper/fetch_kplc_planned_outages.py:46-47 | the result has no leading or trailing whitespace, only plain blanks inside, and never two whitespace characters in a row |
| Text.NormalizeSpaceIdempotent | services/kplc/scraper/fetch_kplc_planned_outages.py:46-47 | normalising twice equals normalising once |
| Text.NormalizeSpaceEmptyIff | src/services/kplc/scraper/fetch_kplc_planned_outages.py:47-48 | `normalize(text)` is empty exactly when the text is all whitespace (the `if not title` test) |
| Text.SplitOnRoundTrip | src/services/kplc/scraper/fetch_kplc_planned_outages.py:81 | joining the pieces of `title.split('-')` with `-` gives the title back |
| Text.LexLessTotal | services/kplc/scraper/fetch_kplc_planned_outages.py:240 | Python's string `<` is total on distinct strings, so `createdAt` values are always comparable |
| Text.LexLessTransitive | services/kplc/scraper/fetch_kplc_planned_outages.py:240 | Python's string `<` is transitive |
| Keyed.DedupFirst | services/kplc/scraper/fetch_kplc_planned_outages.py:77-84 | the `seen`-set loop returns the first-occurrence dedup of its input: distinct keys, and the same key set as the input |
| Keyed.FirstByKeyKeys | src/services/kplc/scraper/fetch_kplc_planned_outages.py:101-110 | first-wins dedup yields pairwise distinct keys, exactly the input's keys, one element per distinct key |
| Keyed.FirstByKeyKeepsFirst | src/services/kplc/scraper/fetch_kplc_planned_outages.py:104-108 | the element kept for a key is the first input element with that key |
| Keyed.FirstByKeyOrder | services/kplc/scraper/fetch_kplc_planned_outages.py:80-83 | the dedup output is a subsequence of the input (input order preserved) |
| Keyed.FirstByKeyFirstOrder | services/kplc/scraper/fetch_kplc_planned_outages.py:80-83 | the kept elements come in the order in which their keys first occur in the input |
| Keyed.FirstByKeyMembers | src/services/kplc/scraper/fetch_kplc_planned_outages.py:104-108 | the dedup only drops elements: everything it returns was in the input |
| Keyed.LastByKeySpec | services/kplc/scraper/fetch_kplc_planned_outages.py:236-238 | assigning into a dict by id yields distinct ids, one entry per distinct input id in first-insertion order, holding the last input record with that id |
| PdfLinks.HostPrefix | services/kplc/scraper/fetch_kplc_planned_outages.py:71-72 | the `^(https?://[^/]+)` match is non-empty iff the base starts with `http://` or `https://` followed by a non-`/` character; it is then a prefix of the base ending at the first `/` after the scheme, or at the end |
| PdfLinks.DirectoryOf | services/kplc/scraper/fetch_kplc_planned_outages.py:76 | `base.rsplit("/", 1)[0]` is the base up to its last `/`, or the whole base when it has no `/` |
| PdfLinks.ResolveHrefSpec | services/kplc/scraper/fetch_kplc_planned_outages.py:63-76 | an `href` is kept iff its stripped form ends in `.pdf` in any letter case; a kept `href` starting with `http` is used as it is, one starting with `/` goes after the base URL's scheme and host, any other goes after the base URL's directory and a `/`; the resolved URL ends with the stripped `href` and is a `.pdf` link |
| PdfLinks.ResolveAllSpec | services/kplc/scraper/fetch_kplc_planned_outages.py:62-76 | the collected URLs are exactly the resolutions of the PDF anchors: each is a `.pdf` link resolved from one of the anchors, every anchor whose stripped `href` ends in `.pdf` in any letter case contributes its URL, and URL `i` is the resolution of the `i`-th PDF anchor in document order (`PdfAnchors`, strictly increasing) |
| PdfLinks.ExtractPdfLinksSpec | services/kplc/scraper/fetch_kplc_planned_outages.py:77-84 | the link list has no duplicates, holds exactly the distinct resolved URLs, lists them in the order of their first occurrence among the resolved URLs, and contains only `.pdf` links |
| PdfExtractor.Flush | services/kplc/scraper/fetch_kplc_planned_outages.py:160-172 | `flush` emits a record only when one of region/area/start/end is non-empty, and always resets all four fields |
| PdfExtractor.BlankLineSkipped | services/kplc/scraper/fetch_kplc_planned_outages.py:175-176 | an empty line leaves the scanner state unchanged |
| PdfExtractor.RegionLineFlushes | services/kplc/scraper/fetch_kplc_planned_outages.py:177-182 | a region match flushes the open block (emitting it iff it has a field) and opens a block holding only the stripped region |
| PdfExtractor.FieldLinePriority | services/kplc/scraper/fetch_kplc_planned_outages.py:183-196 | without a region match, the first of area, date, time that matches sets its one field (area, startTime, endTime), overwriting an earlier value; nothing else changes and nothing is emitted |
| PdfExtractor.StructuredRecordsFromSource | services/kplc/scraper/fetch_kplc_planned_outages.py:162-171 | every structured record has at least one non-empty field, `sourceUrl = pdf_url`, the run's timestamp, and id `hash_id(pdf_url|region|area|start|end)` of its own fields |
| PdfExtractor.ScanMatchesBlocks | services/kplc/scraper/fetch_kplc_planned_outages.py:174-196 | after any prefix of the lines the scanner holds the last block of that prefix open and has emitted exactly the records of the earlier blocks |
| PdfExtractor.StructuredIsRecordsOfBlocks | services/kplc/scraper/fetch_kplc_planned_outages.py:145-198 | the scan plus final flush emits one record per block that has a field, in order; a block is a region line and the lines up to the next one, with each field the last value set in it |
| PdfExtractor.StructuredRecordsBound | services/kplc/scraper/fetch_kplc_planned_outages.py:174-198 | the structured scan emits at most one record per region line plus one |
| PdfExtractor.NoMatchNoStructured | services/kplc/scraper/fetch_kplc_planned_outages.py:174-198 | when no line matches any pattern the scan emits nothing |
| PdfExtractor.ParsePdf | services/kplc/scraper/fetch_kplc_planned_outages.py:145-210 | empty text gives no records, any non-empty line list at least one, and every record carries the PDF's URL and the run's timestamp |
| PdfExtractor.EmptyTextNoRecords | services/kplc/scraper/fetch_kplc_planned_outages.py:200 | empty text yields zero records |
| PdfExtractor.FallbackSpec | services/kplc/scraper/fetch_kplc_planned_outages.py:198-210 | with no structured record and a non-empty line list, the result is exactly one record: id `hash_id(pdf_url)`, region the first line cut to 120 characters, area "Planned maintenance", empty times; otherwise the structured records unchanged |
| PdfExtractor.UnrecognizedTextGivesFallback | services/kplc/scraper/fetch_kplc_planned_outages.py:174-210 | text with lines, none matching any pattern, yields exactly the fallback record |
| CoarseRecords.Candidates | services/kplc/scraper/fetch_kplc_planned_outages.py:96-99 | the kept texts are exactly the normalised text nodes that are longer than 12 characters and mention a keyword case-insensitively: each kept text is such a node's, and every such node's text is kept |
| CoarseRecords.CandidatesInOrder | services/kplc/scraper/fetch_kplc_planned_outages.py:96-99 | the kept texts follow document order: text `i` is the normalised text of the `i`-th qualifying node, so the cap of 50 keeps the earliest qualifying nodes |
| CoarseRecords.ParseListSectionSpec | services/kplc/scraper/fetch_kplc_planned_outages.py:94-118 | at most 50 records, one per distinct kept text in first-appearance order, each with id the hash of the text, region the text cut to 120 characters, area "Planned maintenance", empty times and the environment's source URL; every keyword-bearing node's text is among the distinct texts |
| CoarseRecords.ParseWithRegexSpec | services/kplc/scraper/fetch_kplc_planned_outages.py:213-232 | one record per match for the first 50 matches, id the hash of the normalised match, region that text cut to 120 characters, area "Planned maintenance", empty times and the environment's source URL |
| MergeSort.SortIsNewestFirst | services/kplc/scraper/fetch_kplc_planned_outages.py:240 | the sort's output is non-increasing in `createdAt` |
| MergeSort.SortIsStable | services/kplc/scraper/fetch_kplc_planned_outages.py:240 | records with equal `createdAt` keep their input order |
| MergeSort.MergeAndSortIds | services/kplc/scraper/fetch_kplc_planned_outages.py:235-240 | output ids are pairwise distinct and there are as many records as distinct input ids |
| MergeSort.MergeAndSortKeepsLast | services/kplc/scraper/fetch_kplc_planned_outages.py:236-238 | the record kept for each id is the last input record with that id, and every input id is present |
| MergeSort.MergeAndSortOrder | services/kplc/scraper/fetch_kplc_planned_outages.py:239-240 | the output is newest first by `createdAt`; ties stay in first-insertion order of their ids |
| TitleRecords.RangeNeedsDateAndTime | src/services/kplc/scraper/fetch_kplc_planned_outages.py:17-22 | without a date match or without a time-range match both endpoints are `None` |
| TitleRecords.SlashDateSpec | src/services/kplc/scraper/fetch_kplc_planned_outages.py:23 | every `.` and `-` of the matched date becomes `/`, and nothing else changes |
| TitleRecords.EndpointsIndependent | src/services/kplc/scraper/fetch_kplc_planned_outages.py:26-43 | each endpoint is the 12-hour parse of `date time`, else the 24-hour parse, else `None`, independently of the other endpoint |
| TitleRecords.RegionRule | src/services/kplc/scraper/fetch_kplc_planned_outages.py:72-83 | region is the normalised `Region:` capture when non-empty, else the second stripped non-empty hyphen part when there are two, else empty |
| TitleRecords.AreaRule | src/services/kplc/scraper/fetch_kplc_planned_outages.py:75-85 | area is the normalised `Area(s):` capture when non-empty, else "Planned maintenance"; never empty |
| TitleRecords.TitleRecordSpec | src/services/kplc/scraper/fetch_kplc_planned_outages.py:60-99 | an article yields a record iff its normalised text is non-empty and contains "Power Maintenance Notice" or, upper-cased, "SPECIAL POWER SUPPLY INTERRUPTION"; the id is that title cut to 120 characters, so at most 120 long |
| Wrappers.CollectSpec | src/services/kplc/scraper/fetch_kplc_planned_outages.py:57-99 | the loop that appends a record for each qualifying article neither invents nor loses one: every collected value is some item's result, and every item's result is collected |
| Wrappers.CollectInOrder | src/services/kplc/scraper/fetch_kplc_planned_outages.py:57-99 | the appended values keep item order: value `i` is the result of the `i`-th item that has one, those items' positions strictly increase, and every item with a result is among them |
| TitleRecords.ArticleRecordsSpec | src/services/kplc/scraper/fetch_kplc_planned_outages.py:60-99 | every built record comes from one article, has an id of at most 120 characters and points at the schedule page; record `i` is the record of the `i`-th article that yields one (`RecordArticles`, strictly increasing), so the first-wins dedup keeps the earliest such article's record |
| TitleRecords.ArticleRecordsComplete | src/services/kplc/scraper/fetch_kplc_planned_outages.py:60-99 | every article that yields a record has that record among the built ones |
| TitleRecords.FetchCoversTitles | src/services/kplc/scraper/fetch_kplc_planned_outages.py:101-110 | every article that yields a record has its id among the ids `fetch` returns |
| TitleRecords.FetchFirstWins | src/services/kplc/scraper/fetch_kplc_planned_outages.py:101-110 | `fetch` returns pairwise distinct ids, every built id once, the first record built for each, in the order their ids first occur among the built records |
| TitleRecords.FetchRecordsFromTitles | src/services/kplc/scraper/fetch_kplc_planned_outages.py:60-110 | every returned record comes from a qualifying article, with an id of at most 120 characters |
| Windowing.Windows | src/services/prediction/train_from_parquet.py:103-111 | exactly one window per row |
| Windowing.WindowPadded | src/services/prediction/train_from_parquet.py:105-109 | for `i < L-1` window `i` is `L-1-i` copies of row 0 followed by rows `0..i` |
| Windowing.WindowFull | src/services/prediction/train_from_parquet.py:105-107 | for `i >= L-1` window `i` is exactly rows `i-L+1..i` |
| Windowing.WindowNonPositive | src/services/prediction/train_from_parquet.py:105-109 | a sequence length of zero or less gives empty windows |
| Windowing.WindowShape | src/services/prediction/train_from_parquet.py:105-109 | for `L >= 1` every window has exactly `L` rows, entry `k` is row `i-(L-1-k)` clamped at row 0, and the last row is row `i` |
| Windowing.WindowSlides | src/services/prediction/train_from_parquet.py:103-111 | window `i` is window `i-1` without its oldest row, plus row `i` |
| Windowing.WindowsOfPrefix | src/services/prediction/train_from_parquet.py:104-106 | a window reads no later row: the windows of the first `n` rows do not depend on the rest |
| Windowing.SplitAt | src/services/prediction/train_from_parquet.py:141-143 | `s[:idx] + s[idx:] == s`, the first part holding `min(idx, len(s))` items |
| Windowing.ChronoSplitAligned | src/services/prediction/train_from_parquet.py:140-143 | one index cuts tabular rows, windows and labels; training row `k` is input row `k`, test row `k` is input row `idx+k`, each half stays aligned and the halves rebuild the input |
| Windowing.TrainWindowsUseTrainRows | src/services/prediction/train_from_parquet.py:142 | the training windows are the windows of the training rows alone |
| Windowing.TestWindowsEndAtTheirRow | src/services/prediction/train_from_parquet.py:142 | test window `k` has `L` rows and ends at input row `idx+k` |
| Columns.AddMissingSpec | src/services/prediction/train_from_parquet.py:79-81 | missing named columns are added as zeros, existing columns are untouched, no other column appears, row counts stay consistent |
| Columns.DeriveTargetSpec | src/services/prediction/train_from_parquet.py:84-90 | an existing `target` is kept; otherwise it is 1 exactly where `outage_label > 0` and 0 elsewhere, or all 0 without a label column; no other column changes |
| Columns.SequenceDefaultingIsNoOp | src/services/prediction/train_from_parquet.py:99-101 | every sequence column is already a tabular column, so the second defaulting loop never changes the frame |
| Columns.PrepareSpec | src/services/prediction/train_from_parquet.py:79-101 | after preparation every tabular and sequence column and `target` exist with one value per row, and the file's own columns are unchanged |
| Columns.TruncToInt | src/services/prediction/train_from_parquet.py:113 | `astype(int)` truncates toward zero |
| Columns.DerivedLabels | src/services/prediction/train_from_parquet.py:84-90 | a derived target gives labels in {0, 1}, 1 exactly where `outage_label` is positive |
| Training.PrepareGivesPrepared | src/services/prediction/train_from_parquet.py:79-101 | preparing any frame provides every column the rest of `main` reads |
| Training.InputsShape | src/services/prediction/train_from_parquet.py:103-113 | one tabular row of 18 features, one `L` by 14 window and one label per row; window `i` ends with row `i`'s sequence features |
| Training.SplitInputsSpec | src/services/prediction/train_from_parquet.py:140-143 | the split leaves both halves aligned with `idx` and `n-idx` rows, and the training windows are built from training rows only |

## Left out

- Network and file I/O are not modelled: `http_get`, `fetch_pdf_text`, `requests.get`, writing the JSON output, the mirror copy, and the command-line handling and always-exit-0 orchestration of the scraper's `main`. The model takes their results as inputs.
- BeautifulSoup traversal is not modelled, nor the `return []` taken when it cannot be imported. The model starts from the anchor `href`s, text nodes and `article`/`div` texts it would produce.
- `text.splitlines()` is not modelled. `PdfExtractor.ParsePdf` starts from the list of lines.
- The regular-expression engine is not modelled. Each pattern is a parameter that returns the capture the code reads (`Patterns`, `Matchers`, and the `findall` matches of `parse_with_regex`).
- SHA-1 and the 16-digit truncation in `hash_id` are not modelled. The model uses an uninterpreted `hash` function.
- `datetime.strptime` and `isoformat` are not modelled. They are the partial functions of `TitleRecords.Clock`.
- The clock is a timestamp parameter. TitleRecords.Fetch: `fetch` reads `utcnow()` once per record, but the model gives every record of one call the same `createdAt`.
- `DEFAULT_SOURCE_URL` is read from the environment at import time. It is modelled as `CoarseRecords.SourceUrl` of an environment map that the two coarse fallbacks take as a parameter; the process environment itself is not modelled.
- Text.Lower, Text.Upper: only ASCII letters are case-mapped. Python's `lower()`/`upper()` also map other letters and can change a string's length (`"ß".upper() == "SS"`).
- `s or ""` for a `None` string is not modelled. Strings in the model are never `None`.
- PdfLinks.ResolveHrefSpec: for a base URL with no path (`https://host`), `rsplit` yields `https:/`, so a relative `href` resolves to a malformed URL. The model reproduces this rather than correcting it: the lemma states the three resolution rules for every base and does not promise that the result is a well-formed URL.
- Everything in the trainer after the split is left out as floating-point ML over TensorFlow and scikit-learn. That covers the network, the custom loss, the scalers, training, export and metrics, and also the unrelated `services/prediction/train_from_parquet.py`.
- The weak-label fallback is left out (lines 117-127). It relabels rows by a quantile of a floating-point risk score when `target` has one class.
- The split index is a parameter. `int(0.8 * len(X_tab))` (line 140) is floating-point arithmetic.
- Training.InputsShape: the tabular part is the raw feature rows. `RobustScaler` and `StandardScaler` are not modelled.
- Columns.DeriveTargetSpec: values are reals. NaN in `outage_label` (which compares false and gives 0) and pandas dtypes (int versus float columns) are not modelled.
- Data-frame column order is not modelled. The code selects every column by name.

=== FILE: coarse.dfy ===
/** The two fallbacks used when the page links no PDF: coarse records from the
    page's visible text (`parse_list_section_bs4`) and from a raw keyword
    search of the HTML (`parse_with_regex`). Both cap their output at 50. */
module CoarseRecords {
  import opened Wrappers
  import opened Text
  import opened Notice
  import Keyed

  /** Most coarse records either fallback emits. */
  const Cap: nat := 50

  /** The keywords a text node must mention (compared lower-cased). */
  const Keywords: seq<string> := ["Power Maintenance Notice", "Planned", "Interruption", "Outage"]

  /** `DEFAULT_SOURCE_URL` when `KPLC_SOURCE_URL` is unset. */
  const DefaultSourceUrl: string := "https://www.kplc.co.ke/customer-support#powerschedule"

  /** The URL every coarse record points at: the `KPLC_SOURCE_URL`
      environment variable when it is set, else `DefaultSourceUrl`. */
  function SourceUrl(env: map<string, string>): string {
    if "KPLC_SOURCE_URL" in env then env["KPLC_SOURCE_URL"] else DefaultSourceUrl
  }

  /** A coarse record: the normalized text as title, no times. */
  function CoarseRecord(t: string, url: string, createdAt: string, hash: string -> string): Outage {
    Outage(hash(t), Take(t, 120), PlannedMaintenance, [], [], url, createdAt)
  }

  predicate IsCoarseRecordOf(o: Outage, t: string, url: string, createdAt: string, hash: string -> string) {
    && o.id == hash(t)
    && o.region == Take(t, 120)
    && o.area == PlannedMaintenance
    && o.startTime == "" && o.endTime == ""
    && o.sourceUrl == url && o.createdAt == createdAt
  }

  function BuildRecords(ts: seq<string>, url: string, createdAt: string, hash: string -> string): (rs: seq<Outage>)
    ensures |rs| == |ts|
    ensures forall i :: 0 <= i < |ts| ==> IsCoarseRecordOf(rs[i], ts[i], url, createdAt, hash)
  {
    seq(|ts|, i requires 0 <= i < |ts| => CoarseRecord(ts[i], url, createdAt, hash))
  }

  /** Some keyword occurs in `t` ignoring letter case, and `t` is longer
      than 12 characters. */
  predicate Mentions(t: string) {
    (exists k :: 0 <= k < |Keywords| && Contains(Lower(t), Lower(Keywords[k]))) && |t| > 12
  }

  /** The normalized text nodes that mention a keyword, in document order:
      each comes from a node, and every node whose normalized text mentions
      a keyword contributes it. */
  function Candidates(nodes: seq<string>): (ts: seq<string>)
    ensures forall t :: t in ts ==> Mentions(t) && IsNormalized(t)
    ensures forall t :: t in ts ==> exists i :: 0 <= i < |nodes| && t == NormalizeSpace(nodes[i])
    ensures forall i :: 0 <= i < |nodes| && Mentions(NormalizeSpace(nodes[i])) ==>
      NormalizeSpace(nodes[i]) in ts
    ensures |ts| <= |nodes|
  {
    if |nodes| == 0 then []
    else
      var init := nodes[..|nodes| - 1];
      var t := NormalizeSpace(nodes[|nodes| - 1]);
      NormalizeSpaceIsNormalized(nodes[|nodes| - 1]);
      assert forall i :: 0 <= i < |init| ==> init[i] == nodes[i];
      Candidates(init) + (if Mentions(t) then [t] else [])
  }

  /** One text node's step of the collecting loop: its normalized text,
      when that mentions a keyword. */
  function Keep(node: string): Option<string> {
    var t := NormalizeSpace(node);
    if Mentions(t) then Some(t) else None
  }

  /** The positions of the nodes whose text is kept, in document order. */
  function CandidateNodes(nodes: seq<string>): seq<nat> {
    SomeIndices(nodes, Keep)
  }

  lemma {:induction false} CandidatesAreCollected(nodes: seq<string>)
    ensures Candidates(nodes) == Collect(nodes, Keep)
  {
    if |nodes| > 0 {
      CandidatesAreCollected(nodes[..|nodes| - 1]);
    }
  }

  /** The kept texts follow document order: text `i` is the normalized text
      of the `i`-th node that qualifies, the positions of those nodes
      strictly increase, and every qualifying node is among them. So the
      cap of 50 keeps the texts of the earliest qualifying nodes. */
  lemma CandidatesInOrder(nodes: seq<string>)
    ensures var ts := Candidates(nodes); var ix := CandidateNodes(nodes);
      && |ix| == |ts|
      && (forall i :: 0 <= i < |ix| ==> ix[i] < |nodes| && ts[i] == NormalizeSpace(nodes[ix[i]]))
      && (forall i, j :: 0 <= i < j < |ix| ==> ix[i] < ix[j])
      && (forall k :: 0 <= k < |nodes| && Mentions(NormalizeSpace(nodes[k])) ==> k in ix)
  {
    CandidatesAreCollected(nodes);
    CollectInOrder(nodes, Keep);
  }

  /** `parse_list_section_bs4` on the page's text nodes, in the environment
      `env`. */
  function ParseListSection(nodes: seq<string>, env: map<string, string>, createdAt: string, hash: string -> string): seq<Outage> {
    BuildRecords(Take(Keyed.FirstByKey(Candidates(nodes), Keyed.Identity), Cap), SourceUrl(env), createdAt, hash)
  }

  /** `parse_with_regex` on the `findall` matches of the keyword pattern, in
      the environment `env`. */
  function ParseWithRegex(matches: seq<string>, env: map<string, string>, createdAt: string, hash: string -> string): seq<Outage> {
    var ts := Take(matches, Cap);
    BuildRecords(seq(|ts|, i requires 0 <= i < |ts| => NormalizeSpace(ts[i])), SourceUrl(env), createdAt, hash)
  }

  /** The page-text fallback emits at most 50 records, one per distinct
      keyword-bearing text in order of first appearance, each titled with
      that text cut to 120 characters, area "Planned maintenance", no times,
      id the hash of the text and the environment's source URL; the titles
      it draws on are pairwise distinct, and every node whose normalized
      text mentions a keyword is among them. */
  lemma ParseListSectionSpec(nodes: seq<string>, env: map<string, string>, createdAt: string, hash: string -> string)
    ensures var rs := ParseListSection(nodes, env, createdAt, hash);
      var uniq := Keyed.FirstByKey(Candidates(nodes), Keyed.Identity);
      && |rs| <= Cap
      && |rs| == (if |uniq| < Cap then |uniq| else Cap)
      && (forall i :: 0 <= i < |rs| ==>
            IsCoarseRecordOf(rs[i], uniq[i], SourceUrl(env), createdAt, hash) && Mentions(uniq[i]) && IsNormalized(uniq[i]))
      && (forall i, j :: 0 <= i < j < |uniq| ==> uniq[i] != uniq[j])
      && (forall t :: t in uniq <==> t in Candidates(nodes))
      && Keyed.InFirstOrder(uniq, Candidates(nodes), Keyed.Identity)
      && (forall i :: 0 <= i < |nodes| && Mentions(NormalizeSpace(nodes[i])) ==>
            NormalizeSpace(nodes[i]) in uniq)
  {
    var cs := Candidates(nodes);
    Keyed.FirstByKeyKeys(cs, Keyed.Identity);
    Keyed.DedupValues(cs);
    Keyed.FirstByKeyFirstOrder(cs, Keyed.Identity);
  }

  /** The raw-HTML fallback emits one record per keyword match, for the
      first 50 matches, titled with the normalized match cut to 120
      characters, identified by the hash of the normalized match and
      pointing at the environment's source URL. */
  lemma ParseWithRegexSpec(matches: seq<string>, env: map<string, string>, createdAt: string, hash: string -> string)
    ensures var rs := ParseWithRegex(matches, env, createdAt, hash);
      && |rs| <= Cap
      && |rs| == (if |matches| < Cap then |matches| else Cap)
      && forall i :: 0 <= i < |rs| ==>
           IsCoarseRecordOf(rs[i], NormalizeSpace(matches[i]), SourceUrl(env), createdAt, hash)
           && |rs[i].region| <= 120
  {
  }
}

=== FILE: extractor.dfy ===
/** `parse_pdf_for_outages`: one forward pass over the lines of a notice PDF,
    collecting region / area / date / time fields into a block and emitting a
    record whenever a new region starts, then once more at the end; a single
    generic record when the pass finds nothing. */
module PdfExtractor {
  import opened Wrappers
  import opened Text
  import opened Notice

  /** The four compiled patterns, as searches returning the capture the
      scanner reads: group 2 of the region pattern, group 1 of the others. */
  datatype Patterns = Patterns(
    region: string -> Option<string>,
    area: string -> Option<string>,
    date: string -> Option<string>,
    time: string -> Option<string>)

  /** What one normalized line contributes, with its capture stripped. */
  datatype LineKind =
    | Blank
    | RegionLine(region: string)
    | AreaLine(area: string)
    | DateLine(date: string)
    | TimeLine(time: string)
    | Unmatched

  /** The fields of the notice being collected. */
  datatype Block = Block(region: string, area: string, start: string, end: string) {
    /** The `if area or start or end or region` test of `flush`. */
    predicate HasContent() {
      region != [] || area != [] || start != [] || end != []
    }
  }

  const EmptyBlock: Block := Block([], [], [], [])

  /** Scanner state: the open block and the records emitted so far. */
  datatype ScanState = ScanState(block: Block, out: seq<Outage>)

  /** Where the records come from: the PDF's URL, the run's timestamp and the
      16-hex-digit SHA-1 prefix `hash_id`. */
  datatype Source = Source(url: string, createdAt: string, hash: string -> string)

  /** Which classifier a line answers to: empty lines are skipped, then the
      region pattern, then area, date and time, first match winning. */
  function Classify(p: Patterns, ln: string): LineKind {
    if ln == [] then Blank
    else match p.region(ln)
      case Some(r) => RegionLine(Strip(r))
      case None =>
        match p.area(ln)
        case Some(a) => AreaLine(Strip(a))
        case None =>
          match p.date(ln)
          case Some(d) => DateLine(Strip(d))
          case None =>
            match p.time(ln)
            case Some(t) => TimeLine(Strip(t))
            case None => Unmatched
  }

  /** The string `hash_id` digests for a block: `pdf_url|region|area|start|end`. */
  function BlockKey(url: string, b: Block): string {
    url + "|" + b.region + "|" + b.area + "|" + b.start + "|" + b.end
  }

  function BlockRecord(src: Source, b: Block): Outage {
    Outage(src.hash(BlockKey(src.url, b)), b.region, b.area, b.start, b.end, src.url, src.createdAt)
  }

  /** `flush()`: emit the open block if it has any field and reset the fields. */
  function Flush(src: Source, st: ScanState): (r: ScanState)
    ensures r.block == EmptyBlock
    ensures st.block.HasContent() ==> r.out == st.out + [BlockRecord(src, st.block)]
    ensures !st.block.HasContent() ==> r.out == st.out
  {
    if st.block.HasContent() then ScanState(EmptyBlock, st.out + [BlockRecord(src, st.block)])
    else st
  }

  /** A non-region line updates one field of the open block. */
  function Apply(b: Block, k: LineKind): Block {
    match k
    case AreaLine(a) => b.(area := a)
    case DateLine(d) => b.(start := d)
    case TimeLine(t) => b.(end := t)
    case _ => b
  }

  /** One iteration of the scanning loop. */
  function Step(src: Source, st: ScanState, k: LineKind): ScanState {
    match k
    case RegionLine(r) => Flush(src, st).(block := EmptyBlock.(region := r))
    case _ => st.(block := Apply(st.block, k))
  }

  /** The loop over the classified lines, from the initial empty state. */
  function ScanKinds(src: Source, ks: seq<LineKind>): ScanState
    decreases |ks|
  {
    if |ks| == 0 then ScanState(EmptyBlock, [])
    else Step(src, ScanKinds(src, ks[..|ks| - 1]), ks[|ks| - 1])
  }

  /** The loop followed by the final `flush()`. */
  function StructuredRecords(src: Source, ks: seq<LineKind>): seq<Outage> {
    Flush(src, ScanKinds(src, ks)).out
  }

  function ClassifyAll(p: Patterns, lines: seq<string>): (ks: seq<LineKind>)
    ensures |ks| == |lines|
    ensures forall i :: 0 <= i < |lines| ==> ks[i] == Classify(p, lines[i])
  {
    seq(|lines|, i requires 0 <= i < |lines| => Classify(p, lines[i]))
  }

  function NormalizeAll(rawLines: seq<string>): (lines: seq<string>)
    ensures |lines| == |rawLines|
    ensures forall i :: 0 <= i < |rawLines| ==> lines[i] == NormalizeSpace(rawLines[i])
  {
    seq(|rawLines|, i requires 0 <= i < |rawLines| => NormalizeSpace(rawLines[i]))
  }

  /** The generic record for a PDF whose text yields no structured block. */
  function FallbackRecord(src: Source, firstLine: string): Outage {
    Outage(src.hash(src.url), Take(firstLine, 120), PlannedMaintenance, [], [], src.url, src.createdAt)
  }

  /** `parse_pdf_for_outages(text, pdf_url)`, given `text.splitlines()`. */
  function ParsePdf(p: Patterns, src: Source, rawLines: seq<string>): (rs: seq<Outage>)
    ensures rawLines == [] ==> rs == []
    ensures rawLines != [] ==> |rs| >= 1
    ensures forall i :: 0 <= i < |rs| ==> rs[i].sourceUrl == src.url && rs[i].createdAt == src.createdAt
  {
    var lines := NormalizeAll(rawLines);
    var structured := StructuredRecords(src, ClassifyAll(p, lines));
    StructuredRecordsFromSource(src, ClassifyAll(p, lines));
    if structured == [] && |lines| > 0 then [FallbackRecord(src, lines[0])]
    else structured
  }

  // ---------------------------------------------------------------------------
  // Properties of one step

  /** Skipping: an empty line leaves the scanner exactly as it was. */
  lemma BlankLineSkipped(p: Patterns, src: Source, st: ScanState)
    ensures Classify(p, []) == Blank
    ensures Step(src, st, Classify(p, [])) == st
  {
  }

  /** A region line closes the open block (emitting it when it has a field)
      and opens a new block holding only the stripped region capture. */
  lemma RegionLineFlushes(p: Patterns, src: Source, st: ScanState, ln: string)
    requires ln != [] && p.region(ln).Some?
    ensures Step(src, st, Classify(p, ln)).block == Block(Strip(p.region(ln).value), [], [], [])
    ensures st.block.HasContent() ==>
      Step(src, st, Classify(p, ln)).out == st.out + [BlockRecord(src, st.block)]
    ensures !st.block.HasContent() ==> Step(src, st, Classify(p, ln)).out == st.out
  {
  }

  /** Without a region match, the first of area, date and time that matches
      sets its one field (area, startTime or endTime) and nothing else moves;
      a line matching none of them changes nothing. */
  lemma FieldLinePriority(p: Patterns, src: Source, st: ScanState, ln: string)
    requires ln != [] && p.region(ln).None?
    ensures Step(src, st, Classify(p, ln)).out == st.out
    ensures var b := Step(src, st, Classify(p, ln)).block;
      && b.region == st.block.region
      && b.area == (if p.area(ln).Some? then Strip(p.area(ln).value) else st.block.area)
      && b.start == (if p.area(ln).None? && p.date(ln).Some? then Strip(p.date(ln).value) else st.block.start)
      && b.end == (if p.area(ln).None? && p.date(ln).None? && p.time(ln).Some?
                   then Strip(p.time(ln).value) else st.block.end)
  {
  }

  // ---------------------------------------------------------------------------
  // Every record the scan emits

  /** Records built from blocks carry the PDF's URL, the run's timestamp, the
      hash of `pdf_url|region|area|start|end`, and at least one field. */
  ghost predicate FromBlocks(src: Source, rs: seq<Outage>) {
    forall i :: 0 <= i < |rs| ==>
      && rs[i].sourceUrl == src.url
      && rs[i].createdAt == src.createdAt
      && rs[i].id == src.hash(BlockKey(src.url, Block(rs[i].region, rs[i].area, rs[i].startTime, rs[i].endTime)))
      && Block(rs[i].region, rs[i].area, rs[i].startTime, rs[i].endTime).HasContent()
  }

  lemma {:induction false} ScanKindsFromBlocks(src: Source, ks: seq<LineKind>)
    ensures FromBlocks(src, ScanKinds(src, ks).out)
    decreases |ks|
  {
    if |ks| > 0 {
      ScanKindsFromBlocks(src, ks[..|ks| - 1]);
    }
  }

  /** Every structured record was emitted by `flush` from a block with at
      least one field, and carries `sourceUrl = pdf_url`, the run's
      timestamp and the hash of its own fields. */
  lemma StructuredRecordsFromSource(src: Source, ks: seq<LineKind>)
    ensures FromBlocks(src, StructuredRecords(src, ks))
  {
    ScanKindsFromBlocks(src, ks);
  }

  // ---------------------------------------------------------------------------
  // Reference: the blocks a line list divides into

  predicate IsRegion(k: LineKind) {
    k.RegionLine?
  }

  /** Index of the last region line, or -1 when there is none. */
  function LastRegionIndex(ks: seq<LineKind>): (j: int)
    ensures -1 <= j < |ks|
    ensures j >= 0 ==> IsRegion(ks[j])
    ensures forall i :: j < i < |ks| ==> !IsRegion(ks[i])
  {
    if |ks| == 0 then -1
    else if IsRegion(ks[|ks| - 1]) then |ks| - 1
    else LastRegionIndex(ks[..|ks| - 1])
  }

  /** The fields a block's body sets. */
  datatype Field = AreaField | StartField | EndField

  function Capture(k: LineKind, f: Field): Option<string> {
    match (k, f)
    case (AreaLine(a), AreaField) => Some(a)
    case (DateLine(d), StartField) => Some(d)
    case (TimeLine(t), EndField) => Some(t)
    case _ => None
  }

  /** The last value the body gives field `f`, or `""`. */
  function LastCapture(body: seq<LineKind>, f: Field): string {
    if |body| == 0 then []
    else match Capture(body[|body| - 1], f)
      case Some(v) => v
      case None => LastCapture(body[..|body| - 1], f)
  }

  /** A block as its lines determine it: its region, and for each other
      field the last line of the block that sets it. */
  function BodyBlock(region: string, body: seq<LineKind>): Block {
    Block(region, LastCapture(body, AreaField), LastCapture(body, StartField), LastCapture(body, EndField))
  }

  /** The blocks of a line list: the lines before the first region line, then
      one block per region line, running to the next region line. */
  function Blocks(ks: seq<LineKind>): (bs: seq<Block>)
    ensures |bs| >= 1
    decreases |ks|
  {
    var j := LastRegionIndex(ks);
    if j < 0 then [BodyBlock([], ks)]
    else Blocks(ks[..j]) + [BodyBlock(ks[j].region, ks[j + 1..])]
  }

  /** One record per block that has a field, in block order. */
  function RecordsOf(src: Source, bs: seq<Block>): seq<Outage> {
    if |bs| == 0 then []
    else
      RecordsOf(src, bs[..|bs| - 1]) +
      (if bs[|bs| - 1].HasContent() then [BlockRecord(src, bs[|bs| - 1])] else [])
  }

  function CountRegions(ks: seq<LineKind>): nat {
    if |ks| == 0 then 0
    else CountRegions(ks[..|ks| - 1]) + (if IsRegion(ks[|ks| - 1]) then 1 else 0)
  }

  lemma {:induction false} BodyBlockSnoc(region: string, body: seq<LineKind>, k: LineKind)
    requires !IsRegion(k)
    ensures BodyBlock(region, body + [k]) == Apply(BodyBlock(region, body), k)
  {
    var b := body + [k];
    assert b[..|b| - 1] == body;
  }

  lemma {:induction false} RecordsOfSnoc(src: Source, bs: seq<Block>, b: Block)
    ensures RecordsOf(src, bs + [b]) ==
      RecordsOf(src, bs) + (if b.HasContent() then [BlockRecord(src, b)] else [])
  {
    assert (bs + [b])[..|bs|] == bs;
  }

  /** The loop's state as the blocks of the lines seen so far describe it. */
  function Described(src: Source, bs: seq<Block>): ScanState
    requires |bs| >= 1
  {
    ScanState(bs[|bs| - 1], RecordsOf(src, bs[..|bs| - 1]))
  }

  lemma {:induction false} RegionLineOpensBlock(src: Source, init: seq<LineKind>, k: LineKind)
    requires IsRegion(k)
    ensures Blocks(init + [k]) == Blocks(init) + [Block(k.region, [], [], [])]
    ensures Step(src, Described(src, Blocks(init)), k) == Described(src, Blocks(init + [k]))
  {
    var ks := init + [k];
    assert LastRegionIndex(ks) == |ks| - 1;
    assert ks[..|ks| - 1] == init;
    assert ks[|ks|..] == [];
    var bs' := Blocks(init);
    var bs := Blocks(ks);
    assert bs == bs' + [Block(k.region, [], [], [])];
    assert bs[..|bs| - 1] == bs';
    assert bs' == bs'[..|bs'| - 1] + [bs'[|bs'| - 1]];
    RecordsOfSnoc(src, bs'[..|bs'| - 1], bs'[|bs'| - 1]);
  }

  lemma {:induction false} FieldLineExtendsBlock(src: Source, init: seq<LineKind>, k: LineKind)
    requires !IsRegion(k)
    ensures var bs' := Blocks(init);
      Blocks(init + [k]) == bs'[..|bs'| - 1] + [Apply(bs'[|bs'| - 1], k)]
  {
    var ks := init + [k];
    var j := LastRegionIndex(ks);
    assert ks[..|ks| - 1] == init;
    assert j == LastRegionIndex(init);
    if j < 0 {
      BodyBlockSnoc([], init, k);
    } else {
      assert ks[..j] == init[..j];
      assert ks[j + 1..] == init[j + 1..] + [k];
      BodyBlockSnoc(ks[j].region, init[j + 1..], k);
    }
  }

  lemma {:induction false} FieldLineStep(src: Source, init: seq<LineKind>, k: LineKind)
    requires !IsRegion(k)
    ensures Step(src, Described(src, Blocks(init)), k) == Described(src, Blocks(init + [k]))
  {
    FieldLineExtendsBlock(src, init, k);
    var bs' := Blocks(init);
    var bs := Blocks(init + [k]);
    assert bs[..|bs| - 1] == bs'[..|bs'| - 1];
  }

  /** The scanning loop, after any prefix of the lines, holds the last block
      of that prefix open and has emitted exactly the records of the earlier
      blocks. */
  lemma {:induction false} ScanMatchesBlocks(src: Source, ks: seq<LineKind>)
    ensures ScanKinds(src, ks) == Described(src, Blocks(ks))
    decreases |ks|
  {
    if |ks| > 0 {
      var init := ks[..|ks| - 1];
      var k := ks[|ks| - 1];
      ScanMatchesBlocks(src, init);
      assert ks == init + [k];
      if IsRegion(k) {
        RegionLineOpensBlock(src, init, k);
      } else {
        FieldLineStep(src, init, k);
      }
    }
  }

  /** The records `parse_pdf_for_outages` builds from the structured scan are
      those of the blocks the line list divides into: one per block that sets
      any field, in order, each block's region from its region line and its
      area, startTime and endTime from the last line setting them. */
  lemma StructuredIsRecordsOfBlocks(src: Source, ks: seq<LineKind>)
    ensures StructuredRecords(src, ks) == RecordsOf(src, Blocks(ks))
  {
    ScanMatchesBlocks(src, ks);
    var bs := Blocks(ks);
    assert bs == bs[..|bs| - 1] + [bs[|bs| - 1]];
    RecordsOfSnoc(src, bs[..|bs| - 1], bs[|bs| - 1]);
  }

  /** There is one block more than there are region lines. */
  lemma {:induction false} BlocksCount(ks: seq<LineKind>)
    ensures |Blocks(ks)| == CountRegions(ks) + 1
    decreases |ks|
  {
    var j := LastRegionIndex(ks);
    if j < 0 {
      NoRegionsCounted(ks);
    } else {
      BlocksCount(ks[..j]);
      CountRegionsSplit(ks, j);
    }
  }

  lemma {:induction false} NoRegionsCounted(ks: seq<LineKind>)
    requires forall i :: 0 <= i < |ks| ==> !IsRegion(ks[i])
    ensures CountRegions(ks) == 0
  {
    if |ks| > 0 {
      NoRegionsCounted(ks[..|ks| - 1]);
    }
  }

  lemma {:induction false} CountRegionsSplit(ks: seq<LineKind>, j: nat)
    requires j < |ks| && IsRegion(ks[j])
    requires forall i :: j < i < |ks| ==> !IsRegion(ks[i])
    ensures CountRegions(ks) == CountRegions(ks[..j]) + 1
    decreases |ks|
  {
    if j < |ks| - 1 {
      var init := ks[..|ks| - 1];
      assert init[..j] == ks[..j];
      CountRegionsSplit(init, j);
    } else {
      assert ks[..|ks| - 1] == ks[..j];
    }
  }

  lemma {:induction false} RecordsOfAtMost(src: Source, bs: seq<Block>)
    ensures |RecordsOf(src, bs)| <= |bs|
  {
    if |bs| > 0 {
      RecordsOfAtMost(src, bs[..|bs| - 1]);
    }
  }

  /** The structured scan emits at most one record per region line, plus one
      for the lines before the first region line. */
  lemma StructuredRecordsBound(src: Source, ks: seq<LineKind>)
    ensures |StructuredRecords(src, ks)| <= CountRegions(ks) + 1
  {
    StructuredIsRecordsOfBlocks(src, ks);
    RecordsOfAtMost(src, Blocks(ks));
    BlocksCount(ks);
  }

  /** When no line matches any pattern, the scan emits nothing. */
  lemma {:induction false} NoMatchNoStructured(src: Source, ks: seq<LineKind>)
    requires forall i :: 0 <= i < |ks| ==> ks[i] == Blank || ks[i] == Unmatched
    ensures ScanKinds(src, ks) == ScanState(EmptyBlock, [])
    ensures StructuredRecords(src, ks) == []
    decreases |ks|
  {
    if |ks| > 0 {
      NoMatchNoStructured(src, ks[..|ks| - 1]);
    }
  }

  // ---------------------------------------------------------------------------
  // The fallback

  /** Empty text yields no records. */
  lemma EmptyTextNoRecords(p: Patterns, src: Source)
    ensures ParsePdf(p, src, []) == []
  {
  }

  /** When the structured scan finds nothing in a non-empty line list,
      exactly one record is produced: id `hash_id(pdf_url)`, region the first
      normalized line cut to 120 characters, area "Planned maintenance", no
      times. Otherwise the structured records are returned as they are. */
  lemma FallbackSpec(p: Patterns, src: Source, rawLines: seq<string>)
    ensures var ks := ClassifyAll(p, NormalizeAll(rawLines));
      && (StructuredRecords(src, ks) == [] && rawLines != [] ==>
            ParsePdf(p, src, rawLines) ==
              [Outage(src.hash(src.url), Take(NormalizeSpace(rawLines[0]), 120),
                      PlannedMaintenance, "", "", src.url, src.createdAt)])
      && (StructuredRecords(src, ks) != [] ==> ParsePdf(p, src, rawLines) == StructuredRecords(src, ks))
  {
  }

  /** Text in which no line matches any pattern, but which has at least one
      line, yields exactly one record: the fallback. */
  lemma UnrecognizedTextGivesFallback(p: Patterns, src: Source, rawLines: seq<string>)
    requires rawLines != []
    requires forall i :: 0 <= i < |rawLines| ==>
      var ln := NormalizeSpace(rawLines[i]);
      ln == [] || (p.region(ln).None? && p.area(ln).None? && p.date(ln).None? && p.time(ln).None?)
    ensures ParsePdf(p, src, rawLines) == [FallbackRecord(src, NormalizeSpace(rawLines[0]))]
  {
    var ks := ClassifyAll(p, NormalizeAll(rawLines));
    NoMatchNoStructured(src, ks);
  }
}

=== FILE: frame.dfy ===
/** The trainer's preparation of its data frame: every feature column it
    needs is added, filled with zeros, when the file lacks it, and the
    `target` column is derived from `outage_label` when absent. A frame is
    its number of rows and its columns by name. */
module Columns {

  datatype Frame = Frame(height: nat, columns: map<string, seq<real>>)
  {
    /** Every column has one value per row. */
    ghost predicate WellFormed() {
      forall c :: c in columns ==> |columns[c]| == height
    }
  }

  const Weather: seq<string> := ["temperature", "humidity", "wind_speed", "wind_gust", "precipitation",
                                 "pressure", "visibility", "weather_severity_index"]
  const Grid: seq<string> := ["load_percentage", "frequency", "voltage_stability", "maintenance_events",
                              "equipment_age_index", "grid_congestion_index"]
  const Temporal: seq<string> := ["hour_sin", "hour_cos", "day_of_week", "season"]

  /** The fourteen columns the sequence windows are built from, in order. */
  const SequenceBase: seq<string> := ["temperature", "humidity", "wind_speed", "precipitation",
                                      "load_percentage", "frequency", "voltage_stability", "wind_gust",
                                      "pressure", "visibility", "maintenance_events", "equipment_age_index",
                                      "grid_congestion_index", "weather_severity_index"]

  const Target: string := "target"
  const OutageLabel: string := "outage_label"

  function Zeros(n: nat): (z: seq<real>)
    ensures |z| == n
    ensures forall k :: 0 <= k < n ==> z[k] == 0.0
  {
    seq(n, _ => 0.0)
  }

  /** Each named column the frame lacks is added, all zeros, in the order
      the names are listed; columns already present are left alone. */
  function AddMissing(f: Frame, names: seq<string>): Frame
    decreases |names|
  {
    if |names| == 0 then f
    else
      var c := names[0];
      var g := if c in f.columns then f else Frame(f.height, f.columns[c := Zeros(f.height)]);
      AddMissing(g, names[1..])
  }

  /** 1 where a label is positive and 0 elsewhere. */
  function Positive(labels: seq<real>): (t: seq<real>)
    ensures |t| == |labels|
  {
    seq(|labels|, k requires 0 <= k < |labels| => if labels[k] > 0.0 then 1.0 else 0.0)
  }

  /** Target derivation: an existing `target` is kept; otherwise it is 1 where
      `outage_label` is positive and 0 elsewhere, or all 0 without a label. */
  function DeriveTarget(f: Frame): Frame {
    if Target in f.columns then f
    else if OutageLabel in f.columns then Frame(f.height, f.columns[Target := Positive(f.columns[OutageLabel])])
    else Frame(f.height, f.columns[Target := Zeros(f.height)])
  }

  /** The trainer's preparation steps in order: default the tabular
      columns, derive the target, then default the sequence columns. */
  function Prepare(f: Frame): Frame {
    AddMissing(DeriveTarget(AddMissing(f, Tabular)), SequenceBase)
  }

  // ---------------------------------------------------------------------------
  // properties

  /** Adding missing columns never touches an existing column, gives every
      missing named column `height` zeros, adds nothing else, and keeps the
      frame well formed. */
  lemma {:induction false} AddMissingSpec(f: Frame, names: seq<string>)
    ensures var g := AddMissing(f, names);
      && g.height == f.height
      && g.columns.Keys == f.columns.Keys + (set c | c in names)
      && (forall c :: c in f.columns ==> c in g.columns && g.columns[c] == f.columns[c])
      && (forall c :: c in g.columns && c !in f.columns ==> g.columns[c] == Zeros(f.height))
      && (f.WellFormed() ==> g.WellFormed())
    decreases |names|
  {
    if |names| > 0 {
      var c := names[0];
      var h := if c in f.columns then f else Frame(f.height, f.columns[c := Zeros(f.height)]);
      AddMissingSpec(h, names[1..]);
      assert (set x | x in names) == {c} + (set x | x in names[1..]) by {
        assert names == [c] + names[1..];
      }
    }
  }

  /** Target derivation: an existing `target` is left alone; otherwise the
      new target is 1 exactly where `outage_label` is positive (0 everywhere
      without a label column); no other column changes and the frame stays
      well formed. */
  lemma DeriveTargetSpec(f: Frame)
    requires f.WellFormed()
    ensures var g := DeriveTarget(f);
      && g.height == f.height
      && g.WellFormed()
      && Target in g.columns
      && g.columns.Keys == f.columns.Keys + {Target}
      && (forall c :: c in f.columns ==> c in g.columns && g.columns[c] == f.columns[c])
      && (Target !in f.columns && OutageLabel in f.columns ==>
            forall k :: 0 <= k < f.height ==>
              (g.columns[Target][k] == 1.0 <==> f.columns[OutageLabel][k] > 0.0) &&
              (g.columns[Target][k] == 0.0 <==> f.columns[OutageLabel][k] <= 0.0))
      && (Target !in f.columns && OutageLabel !in f.columns ==> g.columns[Target] == Zeros(f.height))
  {
  }

  /** The tabular feature columns, in the order they are selected. */
  const Tabular: seq<string> := Weather + Grid + Temporal

  /** Every name in `names` is a column of `f`. */
  predicate HasAll(f: Frame, names: seq<string>) {
    forall c :: c in names ==> c in f.columns
  }

  /** Every sequence column is one of the tabular columns. */
  lemma SequenceBaseIsTabular()
    ensures forall c :: c in SequenceBase ==> c in Tabular
  {
    var at := [0, 1, 2, 4, 8, 9, 10, 3, 5, 6, 11, 12, 13, 7];
    forall j | 0 <= j < |SequenceBase|
      ensures SequenceBase[j] in Tabular
    {
      assert Tabular[at[j]] == SequenceBase[j];
    }
  }

  lemma {:induction false} AllPresentIsNoOp(f: Frame, names: seq<string>)
    requires HasAll(f, names)
    ensures AddMissing(f, names) == f
    decreases |names|
  {
    if |names| > 0 {
      assert names[0] in names;
      AllPresentIsNoOp(f, names[1..]);
    }
  }

  /** Because every sequence column is already a tabular column, the second
      round of defaulting, for the sequence columns, never adds anything: it is the
      identity. */
  lemma SequenceDefaultingIsNoOp(f: Frame)
    ensures Prepare(f) == DeriveTarget(AddMissing(f, Tabular))
  {
    var a := AddMissing(f, Tabular);
    AddMissingSpec(f, Tabular);
    SequenceBaseIsTabular();
    var g := DeriveTarget(a);
    assert g.columns.Keys >= a.columns.Keys;
    AllPresentIsNoOp(g, SequenceBase);
  }

  /** Preparation before the no-op second round: the tabular columns and
      the target are present, the file's own columns are unchanged. */
  lemma {:induction false} DefaultedSpec(f: Frame)
    requires f.WellFormed()
    ensures var g := DeriveTarget(AddMissing(f, Tabular));
      && g.WellFormed() && g.height == f.height
      && Target in g.columns
      && HasAll(g, Tabular)
      && (forall c :: c in f.columns ==> c in g.columns && g.columns[c] == f.columns[c])
  {
    var a := AddMissing(f, Tabular);
    AddMissingSpec(f, Tabular);
    DeriveTargetSpec(a);
  }

  /** After preparation every tabular column, every sequence column and the
      target exist, one value per row; columns the file already had are
      unchanged. */
  lemma {:induction false} PrepareSpec(f: Frame)
    requires f.WellFormed()
    ensures var g := Prepare(f);
      && g.WellFormed() && g.height == f.height
      && Target in g.columns
      && HasAll(g, Tabular) && HasAll(g, SequenceBase)
      && (forall c :: c in f.columns ==> c in g.columns && g.columns[c] == f.columns[c])
  {
    DefaultedSpec(f);
    SequenceDefaultingIsNoOp(f);
    SequenceBaseIsTabular();
  }

  // ---------------------------------------------------------------------------
  // rows and labels

  /** Row `i` of the sequence
      columns, in their listed order. */
  function SequenceRow(f: Frame, i: nat): (row: seq<real>)
    requires f.WellFormed() && i < f.height
    requires HasAll(f, SequenceBase)
    ensures |row| == |SequenceBase|
    ensures forall j :: 0 <= j < |SequenceBase| ==> row[j] == f.columns[SequenceBase[j]][i]
  {
    seq(|SequenceBase|, j requires 0 <= j < |SequenceBase| => f.columns[SequenceBase[j]][i])
  }

  function SequenceRows(f: Frame): (rows: seq<seq<real>>)
    requires f.WellFormed()
    requires HasAll(f, SequenceBase)
    ensures |rows| == f.height
    ensures forall i :: 0 <= i < f.height ==> rows[i] == SequenceRow(f, i)
  {
    seq(f.height, i requires 0 <= i < f.height => SequenceRow(f, i))
  }

  /** Python's conversion of a float to an integer: truncation toward zero. */
  function TruncToInt(x: real): (n: int)
    ensures x >= 0.0 ==> n as real <= x < n as real + 1.0 && n >= 0
    ensures x < 0.0 ==> n as real - 1.0 < x <= n as real && n <= 0
  {
    if x >= 0.0 then x.Floor else -((-x).Floor)
  }

  /** The target column, each value converted to an integer. */
  function Labels(f: Frame): (y: seq<int>)
    requires f.WellFormed() && Target in f.columns
    ensures |y| == f.height
  {
    seq(f.height, k requires 0 <= k < f.height => TruncToInt(f.columns[Target][k]))
  }

  /** A derived target gives 0/1 labels: 1 exactly at the rows whose
      `outage_label` is positive. */
  lemma DerivedLabels(f: Frame)
    requires f.WellFormed() && Target !in f.columns
    ensures var y := Labels(DeriveTarget(f));
      forall k :: 0 <= k < f.height ==>
        (y[k] == 0 || y[k] == 1) &&
        (y[k] == 1 <==> OutageLabel in f.columns && f.columns[OutageLabel][k] > 0.0)
  {
    DeriveTargetSpec(f);
  }
}

=== FILE: keyed.dfy ===
/** Collapsing a list by a key, the two ways the scrapers do it: keeping the
    first element per key (a `seen` set and a list, as in `extract_pdf_links_bs4`,
    `parse_list_section_bs4` and `fetch`), or keeping the last one in the
    position where the key first appeared (assignment into a Python `dict`,
    as in `merge_and_sort`). */
module Keyed {

  /** The keys occurring in `s`. */
  function KeysOf<T, K>(s: seq<T>, key: T -> K): set<K> {
    set i | 0 <= i < |s| :: key(s[i])
  }

  predicate DistinctKeys<T, K(==)>(s: seq<T>, key: T -> K) {
    forall i, j :: 0 <= i < j < |s| ==> key(s[i]) != key(s[j])
  }

  /** `a` is `b` with some elements left out, the rest in their order. */
  predicate IsSubsequence<T(==)>(a: seq<T>, b: seq<T>)
    decreases |b|
  {
    if |a| == 0 then true
    else if |b| == 0 then false
    else if a[|a| - 1] == b[|b| - 1] then IsSubsequence(a[..|a| - 1], b[..|b| - 1])
    else IsSubsequence(a, b[..|b| - 1])
  }

  lemma {:induction false} KeysOfSnoc<T, K>(s: seq<T>, x: T, key: T -> K)
    ensures KeysOf(s + [x], key) == KeysOf(s, key) + {key(x)}
  {
    var t := s + [x];
    assert forall i :: 0 <= i < |s| ==> t[i] == s[i];
    assert t[|s|] == x;
  }

  // ---------------------------------------------------------------------------
  /** The key under which a plain `seen` set dedups: the element itself. */
  function Identity<T>(x: T): T {
    x
  }

  // first occurrence wins

  /** The elements of `s` whose key has not been seen earlier in `s`. */
  function FirstByKey<T, K(==)>(s: seq<T>, key: T -> K): seq<T>
    decreases |s|
  {
    if |s| == 0 then []
    else
      var init := s[..|s| - 1];
      var x := s[|s| - 1];
      FirstByKey(init, key) + (if key(x) in KeysOf(init, key) then [] else [x])
  }

  /** The first element of `s` whose key is `k`. */
  function FirstWithKey<T, K(==)>(s: seq<T>, key: T -> K, k: K): T
    requires k in KeysOf(s, key)
    decreases |s|
  {
    var init := s[..|s| - 1];
    if k in KeysOf(init, key) then FirstWithKey(init, key, k) else s[|s| - 1]
  }

  /** The last element of `s` whose key is `k`. */
  function LastWithKey<T, K(==)>(s: seq<T>, key: T -> K, k: K): T
    requires k in KeysOf(s, key)
    decreases |s|
  {
    var init := s[..|s| - 1];
    if key(s[|s| - 1]) == k then s[|s| - 1]
    else
      KeysOfSnoc(init, s[|s| - 1], key);
      assert s == init + [s[|s| - 1]];
      LastWithKey(init, key, k)
  }

  lemma {:induction false} FirstByKeySnoc<T, K>(s: seq<T>, key: T -> K)
    requires |s| > 0
    ensures FirstByKey(s, key) == FirstByKey(s[..|s| - 1], key) +
      (if key(s[|s| - 1]) in KeysOf(s[..|s| - 1], key) then [] else [s[|s| - 1]])
  {
  }

  /** First-wins dedup only drops elements: whatever it keeps was in the input. */
  lemma {:induction false} FirstByKeyMembers<T, K>(s: seq<T>, key: T -> K)
    ensures forall x :: x in FirstByKey(s, key) ==> x in s
    decreases |s|
  {
    if |s| > 0 {
      var init := s[..|s| - 1];
      FirstByKeyMembers(init, key);
      FirstByKeySnoc(s, key);
      forall x | x in FirstByKey(s, key)
        ensures x in s
      {
        if x in FirstByKey(init, key) {
          assert x in init;
          var k :| 0 <= k < |init| && init[k] == x;
          assert s[k] == x;
        }
      }
    }
  }

  /** First-wins dedup keeps one element per key of the input and no more. */
  lemma {:induction false} FirstByKeyKeys<T, K>(s: seq<T>, key: T -> K)
    ensures DistinctKeys(FirstByKey(s, key), key)
    ensures KeysOf(FirstByKey(s, key), key) == KeysOf(s, key)
    ensures |FirstByKey(s, key)| == |KeysOf(s, key)|
    decreases |s|
  {
    if |s| > 0 {
      var init := s[..|s| - 1];
      var x := s[|s| - 1];
      FirstByKeyKeys(init, key);
      KeysOfSnoc(init, x, key);
      assert s == init + [x];
      var f := FirstByKey(init, key);
      FirstByKeySnoc(s, key);
      assert s[..|s| - 1] == init;
      if key(x) in KeysOf(init, key) {
        assert FirstByKey(s, key) == f;
      } else {
        KeysOfSnoc(f, x, key);
        var r := f + [x];
        assert FirstByKey(s, key) == r;
        forall i, j | 0 <= i < j < |r|
          ensures key(r[i]) != key(r[j])
        {
          if j == |f| {
            assert key(r[i]) in KeysOf(f, key);
          } else {
            assert r[i] == f[i] && r[j] == f[j];
          }
        }
      }
    }
  }

  /** Each kept element is the first element of the input with its key. */
  lemma {:induction false} FirstByKeyKeepsFirst<T, K>(s: seq<T>, key: T -> K)
    ensures forall m :: 0 <= m < |FirstByKey(s, key)| ==>
      key(FirstByKey(s, key)[m]) in KeysOf(s, key) &&
      FirstByKey(s, key)[m] == FirstWithKey(s, key, key(FirstByKey(s, key)[m]))
    decreases |s|
  {
    if |s| > 0 {
      var init := s[..|s| - 1];
      var x := s[|s| - 1];
      FirstByKeyKeepsFirst(init, key);
      KeysOfSnoc(init, x, key);
      FirstByKeySnoc(s, key);
      var f := FirstByKey(init, key);
      var r := FirstByKey(s, key);
      forall m | 0 <= m < |r|
        ensures key(r[m]) in KeysOf(s, key) && r[m] == FirstWithKey(s, key, key(r[m]))
      {
        if m < |f| {
          assert r[m] == f[m];
        } else {
          assert r[m] == x;
        }
      }
    }
  }

  /** The kept elements appear in the order they have in the input. */
  lemma {:induction false} FirstByKeyOrder<T, K>(s: seq<T>, key: T -> K)
    ensures IsSubsequence(FirstByKey(s, key), s)
    decreases |s|
  {
    if |s| > 0 {
      var init := s[..|s| - 1];
      var x := s[|s| - 1];
      FirstByKeyOrder(init, key);
      FirstByKeySnoc(s, key);
      var f := FirstByKey(init, key);
      assert s == init + [x];
      assert s[..|s| - 1] == init;
      if key(x) in KeysOf(init, key) {
        assert FirstByKey(s, key) == f;
        SubsequenceExtend(f, init, x);
      } else {
        var r := f + [x];
        assert FirstByKey(s, key) == r;
        assert r[..|r| - 1] == f;
      }
    }
  }

  /** `r` lists its elements in the order their keys first occur in `s`. */
  predicate InFirstOrder<T, K(==)>(r: seq<T>, s: seq<T>, key: T -> K) {
    forall i, j :: 0 <= i < j < |r| ==>
      IndexOfKey(s, key, key(r[i])) < IndexOfKey(s, key, key(r[j]))
  }

  /** Adding an element at the end does not move the first occurrence of a
      key that already occurs. */
  lemma IndexOfKeySnoc<T, K>(s: seq<T>, x: T, key: T -> K, k: K)
    requires k in KeysOf(s, key)
    ensures IndexOfKey(s + [x], key, k) == IndexOfKey(s, key, k)
  {
    var n := IndexOfKey(s, key, k);
    var t := s + [x];
    assert t[n] == s[n];
  }

  /** The kept elements come in the order in which their keys first occur in
      the input: together with `FirstByKeyKeys` this fixes the output. */
  lemma {:induction false} FirstByKeyFirstOrder<T, K>(s: seq<T>, key: T -> K)
    ensures InFirstOrder(FirstByKey(s, key), s, key)
    decreases |s|
  {
    if |s| > 0 {
      var init := s[..|s| - 1];
      var x := s[|s| - 1];
      assert s == init + [x];
      FirstByKeyFirstOrder(init, key);
      FirstByKeyKeys(init, key);
      FirstByKeySnoc(s, key);
      var f := FirstByKey(init, key);
      var r := FirstByKey(s, key);
      forall i, j | 0 <= i < j < |r|
        ensures IndexOfKey(s, key, key(r[i])) < IndexOfKey(s, key, key(r[j]))
      {
        assert r[i] == f[i];
        assert key(f[i]) in KeysOf(f, key);
        IndexOfKeySnoc(init, x, key, key(f[i]));
        if j < |f| {
          assert r[j] == f[j];
          assert key(f[j]) in KeysOf(f, key);
          IndexOfKeySnoc(init, x, key, key(f[j]));
        } else {
          assert r[j] == x && key(x) !in KeysOf(init, key);
        }
      }
    }
  }

  /** Dedup of plain values (`if u not in seen`): no value twice, and
      exactly the values of the input. */
  lemma DedupValues<T>(s: seq<T>)
    ensures var u := FirstByKey(s, Identity);
      && (forall i, j :: 0 <= i < j < |u| ==> u[i] != u[j])
      && (forall x :: x in u <==> x in s)
  {
    var u := FirstByKey(s, Identity);
    FirstByKeyKeys(s, Identity);
    forall i, j | 0 <= i < j < |u|
      ensures u[i] != u[j]
    {
      assert Identity(u[i]) != Identity(u[j]);
    }
    forall x
      ensures x in u <==> x in s
    {
      if x in u {
        var i :| 0 <= i < |u| && u[i] == x;
        assert Identity(u[i]) in KeysOf(u, Identity);
      }
      if x in s {
        var i :| 0 <= i < |s| && s[i] == x;
        assert Identity(s[i]) in KeysOf(s, Identity);
        var j :| 0 <= j < |u| && Identity(u[j]) == x;
      }
    }
  }

  lemma {:induction false} SubsequenceExtend<T>(a: seq<T>, b: seq<T>, x: T)
    requires IsSubsequence(a, b)
    ensures IsSubsequence(a, b + [x])
    decreases |b|, 1
  {
    if |a| > 0 {
      var b' := b + [x];
      assert b'[..|b'| - 1] == b;
      if a[|a| - 1] == x {
        SubsequenceDropLast(a, b);
      }
    }
  }

  lemma {:induction false} SubsequenceDropLast<T>(a: seq<T>, b: seq<T>)
    requires |a| > 0 && IsSubsequence(a, b)
    ensures IsSubsequence(a[..|a| - 1], b)
    decreases |b|, 0
  {
    var a' := a[..|a| - 1];
    if |a'| > 0 && |b| > 0 {
      var b' := b[..|b| - 1];
      assert b' + [b[|b| - 1]] == b;
      if a[|a| - 1] == b[|b| - 1] {
        SubsequenceExtend(a', b', b[|b| - 1]);
      } else {
        SubsequenceDropLast(a, b');
        SubsequenceExtend(a', b', b[|b| - 1]);
      }
    }
  }

  /** The dedup loop: a `seen` set of keys and a list of kept elements, one
      pass over the input. */
  method DedupFirst<T(==), K(==)>(s: seq<T>, key: T -> K) returns (r: seq<T>)
    ensures r == FirstByKey(s, key)
    ensures DistinctKeys(r, key) && KeysOf(r, key) == KeysOf(s, key)
  {
    var seen: set<K> := {};
    r := [];
    for i := 0 to |s|
      invariant seen == KeysOf(s[..i], key)
      invariant r == FirstByKey(s[..i], key)
    {
      assert s[..i + 1][..i] == s[..i];
      KeysOfSnoc(s[..i], s[i], key);
      assert s[..i + 1] == s[..i] + [s[i]];
      if key(s[i]) !in seen {
        seen := seen + {key(s[i])};
        r := r + [s[i]];
      }
    }
    assert s[..|s|] == s;
    FirstByKeyKeys(s, key);
  }

  // ---------------------------------------------------------------------------
  // last write wins, first position kept

  /** Position of the element with key `k` in `s`, or `|s|`. */
  function IndexOfKey<T, K(==)>(s: seq<T>, key: T -> K, k: K): (n: nat)
    ensures n <= |s|
    ensures n < |s| ==> key(s[n]) == k
    ensures n == |s| ==> k !in KeysOf(s, key)
    ensures forall m :: 0 <= m < n ==> key(s[m]) != k
  {
    if |s| == 0 then 0
    else if key(s[0]) == k then 0
    else
      var n := 1 + IndexOfKey(s[1..], key, k);
      assert forall i :: 1 <= i < |s| ==> s[i] == s[1..][i - 1];
      n
  }

  /** Storing `x` under `key(x)` in an insertion-ordered dict held as its
      list of values: an existing entry is replaced in place, a new one is
      appended. */
  function Assign<T, K(==)>(d: seq<T>, key: T -> K, x: T): seq<T> {
    var n := IndexOfKey(d, key, key(x));
    if n < |d| then d[n := x] else d + [x]
  }

  /** Storing every element in turn under its key, then reading the
      dict's values. */
  function LastByKey<T, K(==)>(s: seq<T>, key: T -> K): seq<T>
    decreases |s|
  {
    if |s| == 0 then []
    else Assign(LastByKey(s[..|s| - 1], key), key, s[|s| - 1])
  }

  /** The dict holds one value per key of the input, in the order the keys
      first appeared. */
  lemma {:induction false} LastByKeyKeyOrder<T, K>(s: seq<T>, key: T -> K)
    ensures |LastByKey(s, key)| == |FirstByKey(s, key)|
    ensures forall m :: 0 <= m < |LastByKey(s, key)| ==>
      key(LastByKey(s, key)[m]) == key(FirstByKey(s, key)[m])
    ensures KeysOf(LastByKey(s, key), key) == KeysOf(s, key)
    decreases |s|
  {
    if |s| > 0 {
      var init := s[..|s| - 1];
      var x := s[|s| - 1];
      LastByKeyKeyOrder(init, key);
      KeysOfSnoc(init, x, key);
      FirstByKeySnoc(s, key);
      var d := LastByKey(init, key);
      var n := IndexOfKey(d, key, key(x));
      if n < |d| {
        KeysOfUpdate(d, n, x, key);
      } else {
        KeysOfSnoc(d, x, key);
      }
    }
  }

  /** The value the dict keeps for each key is the last element assigned
      with that key. */
  lemma {:induction false} LastByKeyKeepsLast<T, K>(s: seq<T>, key: T -> K)
    ensures forall m :: 0 <= m < |LastByKey(s, key)| ==>
      key(LastByKey(s, key)[m]) in KeysOf(s, key) &&
      LastByKey(s, key)[m] == LastWithKey(s, key, key(LastByKey(s, key)[m]))
    decreases |s|
  {
    if |s| > 0 {
      var init := s[..|s| - 1];
      var x := s[|s| - 1];
      assert s == init + [x];
      LastByKeyKeepsLast(init, key);
      LastByKeyDistinct(init, key);
      KeysOfSnoc(init, x, key);
      var d := LastByKey(init, key);
      var r := LastByKey(s, key);
      var n := IndexOfKey(d, key, key(x));
      forall m | 0 <= m < |r|
        ensures key(r[m]) in KeysOf(s, key) && r[m] == LastWithKey(s, key, key(r[m]))
      {
        if m < |d| && (n == |d| || m != n) {
          assert r[m] == d[m];
          assert key(d[m]) != key(x) by {
            if n < |d| {
              assert key(d[m]) != key(d[n]);
            }
          }
        } else {
          assert r[m] == x;
        }
      }
    }
  }

  lemma {:induction false} LastByKeyDistinct<T, K>(s: seq<T>, key: T -> K)
    ensures DistinctKeys(LastByKey(s, key), key)
  {
    LastByKeyKeyOrder(s, key);
    FirstByKeyKeys(s, key);
  }

  /** Python dict assignment in a loop: one value per distinct key, keys in
      first-appearance order, each the last value assigned. */
  lemma LastByKeySpec<T, K>(s: seq<T>, key: T -> K)
    ensures DistinctKeys(LastByKey(s, key), key)
    ensures KeysOf(LastByKey(s, key), key) == KeysOf(s, key)
    ensures |LastByKey(s, key)| == |KeysOf(s, key)| == |FirstByKey(s, key)|
    ensures forall m :: 0 <= m < |LastByKey(s, key)| ==>
      key(LastByKey(s, key)[m]) == key(FirstByKey(s, key)[m])
    ensures forall m :: 0 <= m < |LastByKey(s, key)| ==>
      LastByKey(s, key)[m] == LastWithKey(s, key, key(LastByKey(s, key)[m]))
  {
    LastByKeyKeyOrder(s, key);
    FirstByKeyKeys(s, key);
    LastByKeyKeepsLast(s, key);
  }

  lemma {:induction false} KeysOfUpdate<T, K>(d: seq<T>, n: nat, x: T, key: T -> K)
    requires n < |d| && key(d[n]) == key(x)
    ensures KeysOf(d[n := x], key) == KeysOf(d, key)
  {
    var e := d[n := x];
    forall k | k in KeysOf(d, key)
      ensures k in KeysOf(e, key)
    {
      var i :| 0 <= i < |d| && key(d[i]) == k;
      assert key(e[i]) == k;
    }
    forall k | k in KeysOf(e, key)
      ensures k in KeysOf(d, key)
    {
      var i :| 0 <= i < |e| && key(e[i]) == k;
      assert key(d[i]) == k;
    }
  }
}

=== FILE: links.dfy ===
/** Turning the `href` attributes of a page's anchors into the list of
    absolute PDF URLs the scraper downloads (`extract_pdf_links_bs4`). */
module PdfLinks {
  import opened Wrappers
  import opened Text
  import Keyed

  /** `base` starts with `scheme` and a character other than `/` follows it,
      so a scheme-and-host prefix can be read there. */
  predicate HostFollows(base: string, scheme: string) {
    StartsWith(base, scheme) && |base| > |scheme| && base[|scheme|] != '/'
  }

  /** The scheme and host at the start of `base`: `http://` or `https://`
      and everything up to the next `/`, at least one character; `""` when
      `base` has no such prefix. */
  function HostPrefix(base: string): (h: string)
    ensures h != [] <==> HostFollows(base, "https://") || HostFollows(base, "http://")
    ensures h != [] ==> StartsWith(base, h)
    ensures h != [] ==> |h| == |base| || base[|h|] == '/'
    ensures HostFollows(base, "https://") ==> StartsWith(h, "https://") && '/' !in h[8..]
    ensures HostFollows(base, "http://") ==> StartsWith(h, "http://") && '/' !in h[7..]
  {
    var scheme := if StartsWith(base, "https://") then "https://"
                  else if StartsWith(base, "http://") then "http://"
                  else "";
    if scheme == [] then []
    else
      var rest := base[|scheme|..];
      var host := rest[..IndexOf(rest, '/')];
      assert base == scheme + rest;
      if host == [] then [] else scheme + host
  }

  /** The directory of `base`: `base` up to its last `/`, or all of `base`
      when it has none. */
  function DirectoryOf(base: string): (d: string)
    ensures |d| <= |base| && d == base[..|d|]
    ensures d == base <==> '/' !in base
    ensures d != base ==> base[|d|] == '/' && '/' !in base[|d| + 1..]
    decreases |base|
  {
    if |base| == 0 then []
    else if base[|base| - 1] == '/' then base[..|base| - 1]
    else
      var d := DirectoryOf(base[..|base| - 1]);
      if d == base[..|base| - 1] then base
      else
        assert base[|d| + 1..] == base[..|base| - 1][|d| + 1..] + [base[|base| - 1]];
        d
  }

  /** The absolute URL for one anchor's `href`, or `None` when the stripped
      `href` does not end in `.pdf` (case-insensitively). */
  function ResolveHref(href: string, base: string): Option<string> {
    var h := Strip(href);
    if !EndsWith(Lower(h), ".pdf") then None
    else if StartsWith(h, "http") then Some(h)
    else if StartsWith(h, "/") then Some(HostPrefix(base) + h)
    else Some(DirectoryOf(base) + "/" + h)
  }

  /** One anchor's step of the link loop, against a fixed base URL. */
  function Resolver(base: string): string -> Option<string> {
    h => ResolveHref(h, base)
  }

  /** The resolved URLs of the PDF anchors, in document order, duplicates kept. */
  function ResolveAll(hrefs: seq<string>, base: string): (urls: seq<string>)
    ensures |urls| <= |hrefs|
  {
    Collect(hrefs, Resolver(base))
  }

  /** The positions of the PDF anchors among all anchors, in document order. */
  function PdfAnchors(hrefs: seq<string>, base: string): seq<nat> {
    SomeIndices(hrefs, Resolver(base))
  }

  /** `extract_pdf_links_bs4` on the page's anchors: the resolved PDF URLs,
      each once, in order of first appearance. */
  function ExtractPdfLinks(hrefs: seq<string>, base: string): seq<string> {
    Keyed.FirstByKey(ResolveAll(hrefs, base), Keyed.Identity)
  }

  /** Only `href`s ending in `.pdf` in any letter case are kept. A kept
      `href` starting with `http` is taken as it is, one starting with `/` is
      put after the base URL's scheme and host, and any other is put after
      the base URL's directory and a `/`; whatever the branch, the URL ends
      with the stripped `href`. */
  lemma ResolveHrefSpec(href: string, base: string)
    ensures ResolveHref(href, base).Some? <==> EndsWith(Lower(Strip(href)), ".pdf")
    ensures var h := Strip(href);
      EndsWith(Lower(h), ".pdf") && StartsWith(h, "http") ==> ResolveHref(href, base) == Some(h)
    ensures var h := Strip(href);
      EndsWith(Lower(h), ".pdf") && !StartsWith(h, "http") && StartsWith(h, "/") ==>
        ResolveHref(href, base) == Some(HostPrefix(base) + h)
    ensures var h := Strip(href);
      EndsWith(Lower(h), ".pdf") && !StartsWith(h, "http") && !StartsWith(h, "/") ==>
        ResolveHref(href, base) == Some(DirectoryOf(base) + "/" + h)
    ensures ResolveHref(href, base).Some? ==>
      EndsWith(ResolveHref(href, base).value, Strip(href)) &&
      EndsWith(Lower(ResolveHref(href, base).value), ".pdf")
  {
    var h := Strip(href);
    if EndsWith(Lower(h), ".pdf") {
      var u := ResolveHref(href, base).value;
      var p := if StartsWith(h, "http") then [] else if StartsWith(h, "/") then HostPrefix(base) else DirectoryOf(base) + "/";
      assert u == p + h;
      SuffixKeepsPdf(p, h);
    }
  }

  /** Putting anything in front of a `.pdf` link keeps it one. */
  lemma SuffixKeepsPdf(p: string, h: string)
    requires EndsWith(Lower(h), ".pdf")
    ensures EndsWith(p + h, h) && EndsWith(Lower(p + h), ".pdf")
  {
    var u := p + h;
    assert u[|u| - |h|..] == h;
    assert Lower(u)[|u| - 4..] == Lower(h)[|h| - 4..];
  }

  /** The URLs `ResolveAll` yields are exactly the resolutions of the PDF
      anchors, in document order: each is a `.pdf` link resolved from one of
      the anchors, every anchor whose stripped `href` ends in `.pdf`
      contributes its URL, and URL `i` is the resolution of the `i`-th PDF
      anchor. */
  lemma ResolveAllSpec(hrefs: seq<string>, base: string)
    ensures forall u :: u in ResolveAll(hrefs, base) ==>
      EndsWith(Lower(u), ".pdf") &&
      exists k :: 0 <= k < |hrefs| && ResolveHref(hrefs[k], base) == Some(u)
    ensures forall k :: 0 <= k < |hrefs| && EndsWith(Lower(Strip(hrefs[k])), ".pdf") ==>
      ResolveHref(hrefs[k], base).Some? && ResolveHref(hrefs[k], base).value in ResolveAll(hrefs, base)
    ensures var us := ResolveAll(hrefs, base); var ix := PdfAnchors(hrefs, base);
      && |ix| == |us|
      && (forall i :: 0 <= i < |ix| ==> ix[i] < |hrefs| && ResolveHref(hrefs[ix[i]], base) == Some(us[i]))
      && (forall i, j :: 0 <= i < j < |ix| ==> ix[i] < ix[j])
      && (forall k :: 0 <= k < |hrefs| && EndsWith(Lower(Strip(hrefs[k])), ".pdf") ==> k in ix)
  {
    var f := Resolver(base);
    CollectSpec(hrefs, f);
    CollectInOrder(hrefs, f);
    forall u | u in ResolveAll(hrefs, base)
      ensures EndsWith(Lower(u), ".pdf")
    {
      var k :| 0 <= k < |hrefs| && f(hrefs[k]) == Some(u);
      ResolveHrefSpec(hrefs[k], base);
    }
    forall k | 0 <= k < |hrefs| && EndsWith(Lower(Strip(hrefs[k])), ".pdf")
      ensures ResolveHref(hrefs[k], base).Some?
    {
      ResolveHrefSpec(hrefs[k], base);
    }
  }

  /** The link list has no duplicates, holds exactly the distinct resolved
      URLs, in order of their first appearance among the resolved URLs, and
      each is a `.pdf` link. */
  lemma ExtractPdfLinksSpec(hrefs: seq<string>, base: string)
    ensures forall i, j :: 0 <= i < j < |ExtractPdfLinks(hrefs, base)| ==>
      ExtractPdfLinks(hrefs, base)[i] != ExtractPdfLinks(hrefs, base)[j]
    ensures forall u :: u in ExtractPdfLinks(hrefs, base) <==> u in ResolveAll(hrefs, base)
    ensures Keyed.IsSubsequence(ExtractPdfLinks(hrefs, base), ResolveAll(hrefs, base))
    ensures Keyed.InFirstOrder(ExtractPdfLinks(hrefs, base), ResolveAll(hrefs, base), Keyed.Identity)
    ensures forall u :: u in ExtractPdfLinks(hrefs, base) ==> EndsWith(Lower(u), ".pdf")
  {
    var all := ResolveAll(hrefs, base);
    Keyed.DedupValues(all);
    Keyed.FirstByKeyOrder(all, Keyed.Identity);
    Keyed.FirstByKeyFirstOrder(all, Keyed.Identity);
    ResolveAllSpec(hrefs, base);
  }
}

=== FILE: merge.dfy ===
/** `merge_and_sort`: collapse the collected records by `id`, the last record
    with an id winning, then order them by `createdAt`, newest first, with
    Python's stable descending sort. */
module MergeSort {
  import opened Text
  import opened Notice
  import Keyed

  /** Non-increasing by `createdAt` under Python's string order. */
  predicate NewestFirst(s: seq<Outage>) {
    forall i, j :: 0 <= i < j < |s| ==> !LexLess(s[i].createdAt, s[j].createdAt)
  }

  /** Inserts `x` after every element whose `createdAt` is not older, so
      that an element inserted later stays behind the ones it ties with. */
  function Insert(x: Outage, s: seq<Outage>): seq<Outage> {
    if |s| == 0 then [x]
    else if LexLess(s[0].createdAt, x.createdAt) then [x] + s
    else [s[0]] + Insert(x, s[1..])
  }

  /** Insertion adds `x` and loses nothing. */
  lemma {:induction false} InsertPermutes(x: Outage, s: seq<Outage>)
    ensures multiset(Insert(x, s)) == multiset(s) + multiset{x}
  {
    if |s| > 0 && !LexLess(s[0].createdAt, x.createdAt) {
      InsertPermutes(x, s[1..]);
      assert s == [s[0]] + s[1..];
    }
  }

  /** Python's stable descending sort on `createdAt`, as an insertion sort
      taking the items in input order. */
  function SortNewestFirst(s: seq<Outage>): (r: seq<Outage>)
    ensures multiset(r) == multiset(s)
  {
    if |s| == 0 then []
    else
      assert s == s[..|s| - 1] + [s[|s| - 1]];
      InsertPermutes(s[|s| - 1], SortNewestFirst(s[..|s| - 1]));
      Insert(s[|s| - 1], SortNewestFirst(s[..|s| - 1]))
  }

  /** The records with timestamp `c`, in order. */
  function WithCreatedAt(s: seq<Outage>, c: string): seq<Outage> {
    if |s| == 0 then []
    else (if s[0].createdAt == c then [s[0]] else []) + WithCreatedAt(s[1..], c)
  }

  /** `merge_and_sort(items)`. */
  function MergeAndSort(items: seq<Outage>): seq<Outage> {
    SortNewestFirst(Keyed.LastByKey(items, IdOf))
  }

  // ---------------------------------------------------------------------------
  // The sort

  /** `x` newer than the head goes in front and keeps the order. */
  lemma InsertInFrontNewestFirst(x: Outage, s: seq<Outage>)
    requires |s| > 0 && NewestFirst(s) && LexLess(s[0].createdAt, x.createdAt)
    ensures NewestFirst(Insert(x, s))
  {
    var r := Insert(x, s);
    assert r == [x] + s;
    forall i, j | 0 <= i < j < |r|
      ensures !LexLess(r[i].createdAt, r[j].createdAt)
    {
      if i == 0 {
        assert r[j] == s[j - 1];
        if j - 1 > 0 {
          assert !LexLess(s[0].createdAt, s[j - 1].createdAt);
        }
        if LexLess(x.createdAt, s[j - 1].createdAt) {
          LexLessTransitive(s[0].createdAt, x.createdAt, s[j - 1].createdAt);
          LexLessIrreflexive(s[0].createdAt);
        }
      } else {
        assert r[i] == s[i - 1] && r[j] == s[j - 1];
      }
    }
  }

  /** No element of `s` is newer than `c`. */
  predicate NoneNewerThan(c: string, s: seq<Outage>) {
    forall k :: 0 <= k < |s| ==> !LexLess(c, s[k].createdAt)
  }

  /** Inserting an element no newer than `c` into a list with none newer
      than `c` gives a list with none newer than `c`. */
  lemma {:induction false} InsertNoneNewer(c: string, x: Outage, s: seq<Outage>)
    requires NoneNewerThan(c, s) && !LexLess(c, x.createdAt)
    ensures NoneNewerThan(c, Insert(x, s))
    decreases |s|
  {
    if |s| > 0 && !LexLess(s[0].createdAt, x.createdAt) {
      assert NoneNewerThan(c, s[1..]) by {
        forall k | 0 <= k < |s[1..]|
          ensures !LexLess(c, s[1..][k].createdAt)
        {
          assert s[1..][k] == s[k + 1];
        }
      }
      InsertNoneNewer(c, x, s[1..]);
      var t := Insert(x, s[1..]);
      assert Insert(x, s) == [s[0]] + t;
      forall k | 0 <= k < |[s[0]] + t|
        ensures !LexLess(c, ([s[0]] + t)[k].createdAt)
      {
        if k > 0 {
          assert ([s[0]] + t)[k] == t[k - 1];
        }
      }
    }
  }

  /** `x` not newer than the head goes into the tail; if that keeps the
      tail's order, the whole list keeps its order. */
  lemma InsertBehindNewestFirst(x: Outage, s: seq<Outage>)
    requires |s| > 0 && NewestFirst(s) && !LexLess(s[0].createdAt, x.createdAt)
    requires NewestFirst(Insert(x, s[1..]))
    ensures NewestFirst(Insert(x, s))
  {
    var r := Insert(x, s);
    var t := Insert(x, s[1..]);
    var c := s[0].createdAt;
    assert NoneNewerThan(c, s[1..]) by {
      forall k | 0 <= k < |s[1..]|
        ensures !LexLess(c, s[1..][k].createdAt)
      {
        assert s[1..][k] == s[k + 1];
      }
    }
    InsertNoneNewer(c, x, s[1..]);
    assert r == [s[0]] + t;
    forall i, j | 0 <= i < j < |r|
      ensures !LexLess(r[i].createdAt, r[j].createdAt)
    {
      if i == 0 {
        assert r[j] == t[j - 1];
      } else {
        assert r[i] == t[i - 1] && r[j] == t[j - 1];
      }
    }
  }

  lemma {:induction false} InsertNewestFirst(x: Outage, s: seq<Outage>)
    requires NewestFirst(s)
    ensures NewestFirst(Insert(x, s))
    decreases |s|
  {
    if |s| > 0 {
      if LexLess(s[0].createdAt, x.createdAt) {
        InsertInFrontNewestFirst(x, s);
      } else {
        NewestFirstTail(s);
        InsertNewestFirst(x, s[1..]);
        InsertBehindNewestFirst(x, s);
      }
    }
  }

  /** The sorted records are ordered by `createdAt`, newest first. */
  lemma {:induction false} SortIsNewestFirst(s: seq<Outage>)
    ensures NewestFirst(SortNewestFirst(s))
    decreases |s|
  {
    if |s| > 0 {
      SortIsNewestFirst(s[..|s| - 1]);
      InsertNewestFirst(s[|s| - 1], SortNewestFirst(s[..|s| - 1]));
    }
  }

  lemma {:induction false} WithCreatedAtAppend(a: seq<Outage>, b: seq<Outage>, c: string)
    ensures WithCreatedAt(a + b, c) == WithCreatedAt(a, c) + WithCreatedAt(b, c)
    decreases |a|
  {
    if |a| > 0 {
      assert (a + b)[1..] == a[1..] + b;
      WithCreatedAtAppend(a[1..], b, c);
    } else {
      assert a + b == b;
    }
  }

  lemma {:induction false} WithCreatedAtNone(s: seq<Outage>, c: string)
    requires forall i :: 0 <= i < |s| ==> s[i].createdAt != c
    ensures WithCreatedAt(s, c) == []
    decreases |s|
  {
    if |s| > 0 {
      WithCreatedAtNone(s[1..], c);
    }
  }

  lemma NewestFirstTail(s: seq<Outage>)
    requires |s| > 0 && NewestFirst(s)
    ensures NewestFirst(s[1..])
  {
    forall i, j | 0 <= i < j < |s[1..]|
      ensures !LexLess(s[1..][i].createdAt, s[1..][j].createdAt)
    {
      assert s[1..][i] == s[i + 1] && s[1..][j] == s[j + 1];
    }
  }

  /** Nothing in a newest-first list whose head is older than `c` has
      timestamp `c`. */
  lemma OlderHeadNoneWith(s: seq<Outage>, c: string)
    requires |s| > 0 && NewestFirst(s) && LexLess(s[0].createdAt, c)
    ensures WithCreatedAt(s, c) == []
  {
    forall i | 0 <= i < |s|
      ensures s[i].createdAt != c
    {
      if i > 0 {
        assert !LexLess(s[0].createdAt, s[i].createdAt);
      } else {
        LexLessIrreflexive(c);
      }
    }
    WithCreatedAtNone(s, c);
  }

  lemma WithCreatedAtCons(y: Outage, t: seq<Outage>, c: string)
    ensures WithCreatedAt([y] + t, c) == (if y.createdAt == c then [y] else []) + WithCreatedAt(t, c)
  {
    assert ([y] + t)[0] == y && ([y] + t)[1..] == t;
  }

  /** When `x` is newer than the head it goes in front, and no element of the
      list shares its timestamp. */
  lemma InsertInFrontStable(x: Outage, s: seq<Outage>, c: string)
    requires |s| > 0 && NewestFirst(s) && LexLess(s[0].createdAt, x.createdAt)
    ensures WithCreatedAt(Insert(x, s), c) ==
      WithCreatedAt(s, c) + (if x.createdAt == c then [x] else [])
  {
    assert Insert(x, s) == [x] + s;
    WithCreatedAtCons(x, s, c);
    if x.createdAt == c {
      OlderHeadNoneWith(s, c);
    }
  }

  /** When `x` is not newer than the head it is inserted into the tail, and
      stability of that insertion carries over to the whole list. */
  lemma InsertBehindStable(x: Outage, s: seq<Outage>, c: string)
    requires |s| > 0 && !LexLess(s[0].createdAt, x.createdAt)
    requires WithCreatedAt(Insert(x, s[1..]), c) ==
      WithCreatedAt(s[1..], c) + (if x.createdAt == c then [x] else [])
    ensures WithCreatedAt(Insert(x, s), c) ==
      WithCreatedAt(s, c) + (if x.createdAt == c then [x] else [])
  {
    var head := if s[0].createdAt == c then [s[0]] else [];
    var last := if x.createdAt == c then [x] else [];
    var t := Insert(x, s[1..]);
    assert Insert(x, s) == [s[0]] + t;
    WithCreatedAtCons(s[0], t, c);
    assert s == [s[0]] + s[1..];
    WithCreatedAtCons(s[0], s[1..], c);
    assert head + (WithCreatedAt(s[1..], c) + last) == (head + WithCreatedAt(s[1..], c)) + last;
  }

  /** Insertion puts `x` behind every element with its own timestamp. */
  lemma {:induction false} InsertStable(x: Outage, s: seq<Outage>, c: string)
    requires NewestFirst(s)
    ensures WithCreatedAt(Insert(x, s), c) ==
      WithCreatedAt(s, c) + (if x.createdAt == c then [x] else [])
    decreases |s|
  {
    if |s| == 0 {
    } else if LexLess(s[0].createdAt, x.createdAt) {
      InsertInFrontStable(x, s, c);
    } else {
      NewestFirstTail(s);
      InsertStable(x, s[1..], c);
      InsertBehindStable(x, s, c);
    }
  }

  lemma {:induction false} WithCreatedAtSnoc(s: seq<Outage>, c: string)
    requires |s| > 0
    ensures WithCreatedAt(s, c) ==
      WithCreatedAt(s[..|s| - 1], c) + (if s[|s| - 1].createdAt == c then [s[|s| - 1]] else [])
  {
    var x := s[|s| - 1];
    assert s == s[..|s| - 1] + [x];
    WithCreatedAtAppend(s[..|s| - 1], [x], c);
    assert [x][1..] == [];
  }

  /** Stability: records with equal `createdAt` keep their input order. */
  lemma {:induction false} SortIsStable(s: seq<Outage>, c: string)
    ensures WithCreatedAt(SortNewestFirst(s), c) == WithCreatedAt(s, c)
    decreases |s|
  {
    if |s| > 0 {
      var init := s[..|s| - 1];
      var x := s[|s| - 1];
      SortIsStable(init, c);
      SortIsNewestFirst(init);
      InsertStable(x, SortNewestFirst(init), c);
      WithCreatedAtSnoc(s, c);
    }
  }

  // ---------------------------------------------------------------------------
  // The whole of merge_and_sort

  lemma {:induction false} DistinctIdsPermutation(a: seq<Outage>, b: seq<Outage>)
    requires multiset(a) == multiset(b)
    requires forall i, j :: 0 <= i < j < |a| ==> a[i].id != a[j].id
    ensures forall i, j :: 0 <= i < j < |b| ==> b[i].id != b[j].id
  {
    forall i, j | 0 <= i < j < |b|
      ensures b[i].id != b[j].id
    {
      if b[i].id == b[j].id {
        assert b[i] in multiset(a) && b[j] in multiset(a);
        var p :| 0 <= p < |a| && a[p] == b[i];
        var q :| 0 <= q < |a| && a[q] == b[j];
        assert p == q;
        assert b[i] == b[j];
        MultisetCountTwo(b, i, j);
        MultisetCountOne(a, p);
      }
    }
  }

  lemma {:induction false} MultisetCountTwo(s: seq<Outage>, i: nat, j: nat)
    requires i < j < |s| && s[i] == s[j]
    ensures multiset(s)[s[i]] >= 2
  {
    assert s == s[..j] + [s[j]] + s[j + 1..];
    assert s[i] in s[..j];
    assert multiset(s) == multiset(s[..j]) + multiset{s[j]} + multiset(s[j + 1..]);
  }

  lemma {:induction false} MultisetCountOne(s: seq<Outage>, p: nat)
    requires p < |s|
    requires forall i, j :: 0 <= i < j < |s| ==> s[i].id != s[j].id
    ensures multiset(s)[s[p]] == 1
  {
    var x := s[p];
    assert s == s[..p] + [x] + s[p + 1..];
    forall k | 0 <= k < |s| && k != p
      ensures s[k] != x
    {
      if k < p {
        assert s[k].id != s[p].id;
      } else {
        assert s[p].id != s[k].id;
      }
    }
    assert x !in s[..p] && x !in s[p + 1..];
    assert multiset(s) == multiset(s[..p]) + multiset{x} + multiset(s[p + 1..]);
  }

  lemma {:induction false} LastByIdDistinct(items: seq<Outage>)
    ensures var d := Keyed.LastByKey(items, IdOf);
      forall i, j :: 0 <= i < j < |d| ==> d[i].id != d[j].id
  {
    var d := Keyed.LastByKey(items, IdOf);
    Keyed.LastByKeyDistinct(items, IdOf);
    forall i, j | 0 <= i < j < |d|
      ensures d[i].id != d[j].id
    {
      assert IdOf(d[i]) != IdOf(d[j]);
    }
  }

  /** The merged records have pairwise distinct ids, one per distinct input id. */
  lemma MergeAndSortIds(items: seq<Outage>)
    ensures var r := MergeAndSort(items);
      && (forall i, j :: 0 <= i < j < |r| ==> r[i].id != r[j].id)
      && |r| == |Keyed.KeysOf(items, IdOf)|
  {
    var d := Keyed.LastByKey(items, IdOf);
    var r := MergeAndSort(items);
    LastByIdDistinct(items);
    Keyed.LastByKeyKeyOrder(items, IdOf);
    Keyed.FirstByKeyKeys(items, IdOf);
    DistinctIdsPermutation(d, r);
    assert |r| == |multiset(r)| == |multiset(d)| == |d|;
  }

  /** Each merged record is the last input record with its id, and every
      input id has one. */
  lemma MergeAndSortKeepsLast(items: seq<Outage>)
    ensures var r := MergeAndSort(items);
      && (forall i :: 0 <= i < |r| ==>
            r[i].id in Keyed.KeysOf(items, IdOf) && r[i] == Keyed.LastWithKey(items, IdOf, r[i].id))
      && (forall k :: k in Keyed.KeysOf(items, IdOf) ==> exists i :: 0 <= i < |r| && r[i].id == k)
  {
    var d := Keyed.LastByKey(items, IdOf);
    var r := MergeAndSort(items);
    Keyed.LastByKeyKeepsLast(items, IdOf);
    Keyed.LastByKeyKeyOrder(items, IdOf);
    forall i | 0 <= i < |r|
      ensures r[i].id in Keyed.KeysOf(items, IdOf) && r[i] == Keyed.LastWithKey(items, IdOf, r[i].id)
    {
      assert r[i] in multiset(d);
      var p :| 0 <= p < |d| && d[p] == r[i];
    }
    forall k | k in Keyed.KeysOf(items, IdOf)
      ensures exists i :: 0 <= i < |r| && r[i].id == k
    {
      assert k in Keyed.KeysOf(d, IdOf);
      var p :| 0 <= p < |d| && IdOf(d[p]) == k;
      assert d[p] in multiset(r);
      var i :| 0 <= i < |r| && r[i] == d[p];
    }
  }

  /** The merged records are newest first, records with equal timestamps in
      the order their ids first appeared in the input. */
  lemma MergeAndSortOrder(items: seq<Outage>)
    ensures NewestFirst(MergeAndSort(items))
    ensures forall c :: WithCreatedAt(MergeAndSort(items), c) == WithCreatedAt(Keyed.LastByKey(items, IdOf), c)
  {
    var d := Keyed.LastByKey(items, IdOf);
    SortIsNewestFirst(d);
    forall c
      ensures WithCreatedAt(MergeAndSort(items), c) == WithCreatedAt(d, c)
    {
      SortIsStable(d, c);
    }
  }
}

=== FILE: notice.dfy ===
/** The outage record both scrapers write, one JSON object per notice. */
module Notice {

  /** One planned-outage notice; every field is a JSON string. */
  datatype Outage = Outage(
    id: string,
    region: string,
    area: string,
    startTime: string,
    endTime: string,
    sourceUrl: string,
    createdAt: string)

  /** The area written when the notice text names none. */
  const PlannedMaintenance: string := "Planned maintenance"

  /** The `id` of a record, as a key function for deduplication. */
  function IdOf(o: Outage): string {
    o.id
  }
}

=== FILE: text.dfy ===
/** Python string primitives used by the scrapers: whitespace, stripping,
    whitespace normalization, slicing, case mapping, substring tests,
    splitting at a separator and the ordering of `<` on strings. */
module Text {

  /** The characters Python's `str.isspace` accepts; `\s` in a `str` regex and
      `str.strip()` use the same set. */
  predicate IsSpace(c: char) {
    || ('\t' <= c <= '\r')
    || ('\U{1C}' <= c <= ' ')
    || c == '\U{85}' || c == '\U{A0}' || c == '\U{1680}'
    || ('\U{2000}' <= c <= '\U{200A}')
    || c == '\U{2028}' || c == '\U{2029}' || c == '\U{202F}' || c == '\U{205F}' || c == '\U{3000}'
  }

  predicate AllSpace(s: string) {
    forall i :: 0 <= i < |s| ==> IsSpace(s[i])
  }

  predicate NoSpace(s: string) {
    forall i :: 0 <= i < |s| ==> !IsSpace(s[i])
  }

  // ---------------------------------------------------------------------------
  // strip

  /** `s.lstrip()`: the suffix of `s` after its leading whitespace. */
  function StripLeft(s: string): (r: string)
    ensures |r| <= |s|
    ensures r == [] || !IsSpace(r[0])
  {
    if |s| > 0 && IsSpace(s[0]) then StripLeft(s[1..]) else s
  }

  /** `s.rstrip()`: the prefix of `s` before its trailing whitespace. */
  function StripRight(s: string): (r: string)
    ensures |r| <= |s| && r == s[..|r|]
    ensures AllSpace(s[|r|..])
    ensures r == [] || !IsSpace(r[|r| - 1])
  {
    if |s| > 0 && IsSpace(s[|s| - 1]) then
      var r := StripRight(s[..|s| - 1]);
      assert s[|r|..] == s[..|s| - 1][|r|..] + [s[|s| - 1]];
      r
    else s
  }

  /** `lstrip` removes a prefix of whitespace and nothing else. */
  lemma {:induction false} StripLeftRemovesSpacePrefix(s: string)
    ensures StripLeft(s) == s[|s| - |StripLeft(s)|..]
    ensures AllSpace(s[..|s| - |StripLeft(s)|])
  {
    if |s| > 0 && IsSpace(s[0]) {
      StripLeftRemovesSpacePrefix(s[1..]);
      var k := |s| - |StripLeft(s)|;
      assert s[..k] == [s[0]] + s[1..][..k - 1];
    }
  }

  lemma {:induction false} StripLeftAllSpace(s: string)
    requires AllSpace(s)
    ensures StripLeft(s) == []
  {
    if |s| > 0 {
      StripLeftAllSpace(s[1..]);
    }
  }

  /** `s.strip()`. */
  function Strip(s: string): string {
    StripRight(StripLeft(s))
  }

  // ---------------------------------------------------------------------------
  // normalize_space

  /** Length of the run of non-whitespace characters that starts `s`. */
  function WordLen(s: string): (n: nat)
    ensures n <= |s|
    ensures NoSpace(s[..n])
    ensures n < |s| ==> IsSpace(s[n])
  {
    if |s| > 0 && !IsSpace(s[0]) then 1 + WordLen(s[1..]) else 0
  }

  /** Every maximal run of whitespace becomes one blank. */
  function Collapse(s: string): string
    decreases |s|
  {
    if s == [] then []
    else if IsSpace(s[0]) then [' '] + Collapse(StripLeft(s))
    else [s[0]] + Collapse(s[1..])
  }

  /** `normalize_space` / `normalize`: whitespace runs collapsed to one
      blank, then the ends stripped. */
  function NormalizeSpace(s: string): string {
    Strip(Collapse(s))
  }

  /** A string `NormalizeSpace` leaves as it is: no whitespace at either end,
      only plain blanks inside, and never two of them in a row. */
  predicate IsNormalized(s: string) {
    && (|s| > 0 ==> !IsSpace(s[0]) && !IsSpace(s[|s| - 1]))
    && (forall i :: 0 <= i < |s| && IsSpace(s[i]) ==> s[i] == ' ')
    && (forall i :: 0 <= i < |s| - 1 && IsSpace(s[i]) ==> !IsSpace(s[i + 1]))
  }

  /** `s.split()`: the maximal runs of non-whitespace, in order. */
  function Words(s: string): seq<string>
    decreases |s|
  {
    var t := StripLeft(s);
    if t == [] then []
    else
      var n := WordLen(t);
      [t[..n]] + Words(t[n..])
  }

  /** `" ".join(ws)`. */
  function JoinSpace(ws: seq<string>): string {
    if |ws| == 0 then []
    else if |ws| == 1 then ws[0]
    else ws[0] + [' '] + JoinSpace(ws[1..])
  }

  /** Every piece `split()` returns is a non-empty run of non-whitespace. */
  lemma {:induction false} WordsAreWords(s: string)
    ensures forall k :: 0 <= k < |Words(s)| ==> |Words(s)[k]| > 0 && NoSpace(Words(s)[k])
    decreases |s|
  {
    var t := StripLeft(s);
    if t != [] {
      var n := WordLen(t);
      WordsAreWords(t[n..]);
      var ws := Words(s);
      assert ws == [t[..n]] + Words(t[n..]);
      forall k | 0 <= k < |ws|
        ensures |ws[k]| > 0 && NoSpace(ws[k])
      {
        if k > 0 {
          assert ws[k] == Words(t[n..])[k - 1];
        }
      }
    }
  }

  lemma {:induction false} StripLeftNonSpaceStart(s: string)
    requires s == [] || !IsSpace(s[0])
    ensures StripLeft(s) == s
  {
  }

  lemma {:induction false} StripRightNonSpaceEnd(s: string)
    requires s == [] || !IsSpace(s[|s| - 1])
    ensures StripRight(s) == s
  {
  }

  /** Trailing whitespace in `y` is all `rstrip` can remove once `y` holds a
      non-whitespace character. */
  lemma {:induction false} StripRightKeepsPrefix(x: string, y: string, j: nat)
    requires j < |y| && !IsSpace(y[j])
    ensures StripRight(x + y) == x + StripRight(y)
    decreases |y|
  {
    if IsSpace(y[|y| - 1]) {
      var y' := y[..|y| - 1];
      assert (x + y)[..|x + y| - 1] == x + y';
      assert j < |y'| && y'[j] == y[j];
      StripRightKeepsPrefix(x, y', j);
    }
  }

  /** A run of whitespace after a word is removed entirely by `rstrip`. */
  lemma {:induction false} StripRightDropsSpaces(x: string, y: string)
    requires AllSpace(y)
    ensures StripRight(x + y) == StripRight(x)
    decreases |y|
  {
    if |y| == 0 {
      assert x + y == x;
    } else {
      assert (x + y)[..|x + y| - 1] == x + y[..|y| - 1];
      StripRightDropsSpaces(x, y[..|y| - 1]);
    }
  }

  /** `re.sub` copies a run of non-whitespace through unchanged. */
  lemma {:induction false} CollapseWord(w: string, rest: string)
    requires NoSpace(w)
    ensures Collapse(w + rest) == w + Collapse(rest)
    decreases |w|
  {
    if |w| > 0 {
      assert (w + rest)[1..] == w[1..] + rest;
      CollapseWord(w[1..], rest);
      assert [w[0]] + w[1..] == w;
    } else {
      assert w + rest == rest;
    }
  }

  lemma {:induction false} CollapseStartsLikeInput(s: string)
    requires |s| > 0 && !IsSpace(s[0])
    ensures |Collapse(s)| > 0 && Collapse(s)[0] == s[0]
  {
  }

  lemma {:induction false} WordsSkipLeadingSpace(s: string)
    ensures Words(s) == Words(StripLeft(s))
  {
    StripLeftNonSpaceStart(StripLeft(s));
  }

  /** Leading whitespace does not change the normalized text or the words. */
  lemma {:induction false} NormalizeLeadingSpace(s: string)
    requires |s| > 0 && IsSpace(s[0])
    ensures NormalizeSpace(s) == NormalizeSpace(StripLeft(s))
    ensures Words(s) == Words(StripLeft(s))
  {
    var d := StripLeft(s);
    assert Collapse(s) == [' '] + Collapse(d);
    assert ([' '] + Collapse(d))[1..] == Collapse(d);
    WordsSkipLeadingSpace(s);
  }

  /** A final word followed only by whitespace normalizes to the word. */
  lemma {:induction false} NormalizeLastWord(w: string, rest: string)
    requires |w| > 0 && NoSpace(w) && AllSpace(rest)
    ensures NormalizeSpace(w + rest) == w
  {
    CollapseWord(w, rest);
    assert AllSpace(Collapse(rest)) by {
      if rest != [] {
        StripLeftAllSpace(rest);
        assert Collapse(rest) == [' '];
      }
    }
    StripLeftNonSpaceStart(w + Collapse(rest));
    StripRightDropsSpaces(w, Collapse(rest));
    StripRightNonSpaceEnd(w);
  }

  /** A word, a run of whitespace and more words normalize to the word, one
      blank and the normalized remainder. */
  lemma {:induction false} NormalizeWordThenMore(w: string, rest: string)
    requires |w| > 0 && NoSpace(w)
    requires |rest| > 0 && IsSpace(rest[0]) && StripLeft(rest) != []
    ensures NormalizeSpace(w + rest) == w + [' '] + NormalizeSpace(StripLeft(rest))
  {
    var d := StripLeft(rest);
    CollapseWord(w, rest);
    assert Collapse(rest) == [' '] + Collapse(d);
    CollapseStartsLikeInput(d);
    StripLeftNonSpaceStart(w + Collapse(rest));
    StripLeftNonSpaceStart(Collapse(d));
    assert w + Collapse(rest) == (w + [' ']) + Collapse(d);
    StripRightKeepsPrefix(w + [' '], Collapse(d), 0);
  }

  lemma {:induction false} WordsOfWordThenRest(s: string)
    requires |s| > 0 && !IsSpace(s[0])
    ensures Words(s) == [s[..WordLen(s)]] + Words(s[WordLen(s)..])
  {
    StripLeftNonSpaceStart(s);
  }

  /** Normalizing equals joining the whitespace-separated words with
      single blanks: the whitespace
      rewriting keeps every word, in order, separated by single blanks. */
  lemma {:induction false} NormalizeIsJoinOfWords(s: string)
    ensures NormalizeSpace(s) == JoinSpace(Words(s))
    decreases |s|
  {
    if s == [] {
    } else if IsSpace(s[0]) {
      NormalizeLeadingSpace(s);
      NormalizeIsJoinOfWords(StripLeft(s));
    } else {
      var n := WordLen(s);
      var w := s[..n];
      var rest := s[n..];
      assert s == w + rest;
      WordsOfWordThenRest(s);
      var d := StripLeft(rest);
      if d == [] {
        assert AllSpace(rest) by {
          StripLeftRemovesSpacePrefix(rest);
          assert rest[..|rest| - |d|] == rest;
        }
        assert Words(rest) == [];
        NormalizeLastWord(w, rest);
      } else {
        NormalizeWordThenMore(w, rest);
        NormalizeLeadingSpace(rest);
        NormalizeIsJoinOfWords(d);
        var ws := [w] + Words(d);
        assert Words(d) != [] by {
          StripLeftNonSpaceStart(d);
        }
        assert ws[1..] == Words(d);
      }
    }
  }

  /** Words joined by single blanks form a normalized string. */
  lemma {:induction false} JoinedWordsNormalized(ws: seq<string>)
    requires forall k :: 0 <= k < |ws| ==> |ws[k]| > 0 && NoSpace(ws[k])
    ensures IsNormalized(JoinSpace(ws))
    ensures |ws| > 0 ==> |JoinSpace(ws)| > 0
  {
    if |ws| > 1 {
      JoinedWordsNormalized(ws[1..]);
      var w := ws[0];
      var j := JoinSpace(ws[1..]);
      var r := w + [' '] + j;
      assert r == JoinSpace(ws);
      forall i | 0 <= i < |r| && IsSpace(r[i])
        ensures r[i] == ' '
      {
        if i > |w| {
          assert r[i] == j[i - |w| - 1];
        }
      }
      forall i | 0 <= i < |r| - 1 && IsSpace(r[i])
        ensures !IsSpace(r[i + 1])
      {
        if i > |w| {
          assert r[i] == j[i - |w| - 1] && r[i + 1] == j[i - |w|];
        } else if i == |w| {
          assert r[i + 1] == j[0];
        }
      }
    }
  }

  /** `normalize_space` produces a string with no leading or trailing
      whitespace and no two consecutive whitespace characters. */
  lemma {:induction false} NormalizeSpaceIsNormalized(s: string)
    ensures IsNormalized(NormalizeSpace(s))
  {
    NormalizeIsJoinOfWords(s);
    WordsAreWords(s);
    JoinedWordsNormalized(Words(s));
  }

  /** `normalize_space` leaves a normalized string unchanged. */
  lemma {:induction false} NormalizedIsFixpoint(s: string)
    requires IsNormalized(s)
    ensures NormalizeSpace(s) == s
  {
    CollapseKeepsNormalized(s);
    StripLeftNonSpaceStart(s);
    StripRightNonSpaceEnd(s);
  }

  /** Whitespace inside `s` is plain blanks, never two in a row. */
  predicate SingleBlanks(s: string) {
    && (forall i :: 0 <= i < |s| && IsSpace(s[i]) ==> s[i] == ' ')
    && (forall i :: 0 <= i < |s| - 1 && IsSpace(s[i]) ==> !IsSpace(s[i + 1]))
  }

  lemma {:induction false} SingleBlanksTail(s: string)
    requires |s| > 0 && SingleBlanks(s)
    ensures SingleBlanks(s[1..])
  {
    var t := s[1..];
    forall i | 0 <= i < |t| - 1 && IsSpace(t[i])
      ensures !IsSpace(t[i + 1])
    {
      assert t[i] == s[i + 1] && t[i + 1] == s[i + 2];
    }
  }

  lemma {:induction false} CollapseLoneSpace(s: string)
    requires |s| > 0 && s[0] == ' ' && (|s| == 1 || !IsSpace(s[1]))
    ensures Collapse(s) == [' '] + Collapse(s[1..])
  {
    var t := s[1..];
    assert StripLeft(s) == StripLeft(t);
    StripLeftNonSpaceStart(t);
  }

  lemma {:induction false} CollapseKeepsNormalized(s: string)
    requires SingleBlanks(s)
    ensures Collapse(s) == s
    decreases |s|
  {
    if s != [] {
      var t := s[1..];
      SingleBlanksTail(s);
      CollapseKeepsNormalized(t);
      if IsSpace(s[0]) {
        CollapseLoneSpace(s);
      } else {
        assert Collapse(s) == [s[0]] + Collapse(t);
      }
      assert [s[0]] + t == s;
    }
  }

  /** Applying `normalize_space` twice equals applying it once. */
  lemma {:induction false} NormalizeSpaceIdempotent(s: string)
    ensures NormalizeSpace(NormalizeSpace(s)) == NormalizeSpace(s)
  {
    NormalizeSpaceIsNormalized(s);
    NormalizedIsFixpoint(NormalizeSpace(s));
  }

  /** The normalized string is empty exactly when the input is all whitespace
      (Python's `if not normalize_space(t)` test). */
  lemma {:induction false} NormalizeSpaceEmptyIff(s: string)
    ensures NormalizeSpace(s) == [] <==> AllSpace(s)
  {
    NormalizeIsJoinOfWords(s);
    WordsAreWords(s);
    JoinedWordsNormalized(Words(s));
    var d := StripLeft(s);
    StripLeftRemovesSpacePrefix(s);
    if d != [] {
      assert !IsSpace(s[|s| - |d|]);
      StripLeftNonSpaceStart(d);
    } else {
      assert s[..|s|] == s;
    }
  }

  // ---------------------------------------------------------------------------
  // slicing, prefixes, substrings

  /** `s[:n]` for a non-negative `n`. */
  function Take<T>(s: seq<T>, n: nat): (r: seq<T>)
    ensures |r| <= n && r <= s
    ensures |s| <= n ==> r == s
    ensures |s| > n ==> |r| == n
  {
    if |s| <= n then s else s[..n]
  }

  predicate StartsWith(s: string, p: string) {
    |p| <= |s| && s[..|p|] == p
  }

  predicate EndsWith(s: string, p: string) {
    |p| <= |s| && s[|s| - |p|..] == p
  }

  /** `needle in s`. */
  predicate Contains(s: string, needle: string) {
    exists i :: 0 <= i <= |s| - |needle| && OccursAt(s, needle, i)
  }

  predicate OccursAt(s: string, needle: string, i: int) {
    0 <= i <= |s| - |needle| && s[i..i + |needle|] == needle
  }

  function LowerChar(c: char): char {
    if 'A' <= c <= 'Z' then (c as int + 32) as char else c
  }

  function UpperChar(c: char): char {
    if 'a' <= c <= 'z' then (c as int - 32) as char else c
  }

  /** `s.lower()` restricted to ASCII letters. */
  function Lower(s: string): (r: string)
    ensures |r| == |s|
    ensures forall i :: 0 <= i < |s| ==> r[i] == LowerChar(s[i])
  {
    seq(|s|, i requires 0 <= i < |s| => LowerChar(s[i]))
  }

  /** `s.upper()` restricted to ASCII letters. */
  function Upper(s: string): (r: string)
    ensures |r| == |s|
    ensures forall i :: 0 <= i < |s| ==> r[i] == UpperChar(s[i])
  {
    seq(|s|, i requires 0 <= i < |s| => UpperChar(s[i]))
  }

  // ---------------------------------------------------------------------------
  // str.split(sep)

  /** Index of the first `c` in `s`, or `|s|` when there is none. */
  function IndexOf(s: string, c: char): (k: nat)
    ensures k <= |s|
    ensures forall i :: 0 <= i < k ==> s[i] != c
    ensures k < |s| ==> s[k] == c
  {
    if |s| == 0 || s[0] == c then 0 else 1 + IndexOf(s[1..], c)
  }

  /** `s.split(c)`: the pieces between occurrences of `c`, empty pieces
      included (so `"".split("-") == [""]`). */
  function SplitOn(s: string, c: char): (parts: seq<string>)
    ensures |parts| > 0
    ensures forall k :: 0 <= k < |parts| ==> c !in parts[k]
    decreases |s|
  {
    var k := IndexOf(s, c);
    if k == |s| then [s] else [s[..k]] + SplitOn(s[k + 1..], c)
  }

  /** `sep.join(parts)` for a one-character separator. */
  function JoinOn(parts: seq<string>, c: char): string {
    if |parts| == 0 then []
    else if |parts| == 1 then parts[0]
    else parts[0] + [c] + JoinOn(parts[1..], c)
  }

  /** Splitting on a character and joining the pieces with it gives the
      string back. */
  lemma {:induction false} SplitOnRoundTrip(s: string, c: char)
    ensures JoinOn(SplitOn(s, c), c) == s
    decreases |s|
  {
    var k := IndexOf(s, c);
    if k < |s| {
      var rest := SplitOn(s[k + 1..], c);
      SplitOnRoundTrip(s[k + 1..], c);
      var parts := [s[..k]] + rest;
      assert parts[1..] == rest;
      assert s == s[..k] + [c] + s[k + 1..];
    }
  }

  // ---------------------------------------------------------------------------
  // string order

  /** Python's `a < b` on strings: code-point lexicographic order, a proper
      prefix sorting first. */
  predicate LexLess(a: string, b: string) {
    if |b| == 0 then false
    else if |a| == 0 then true
    else if a[0] != b[0] then a[0] < b[0]
    else LexLess(a[1..], b[1..])
  }

  lemma {:induction false} LexLessIrreflexive(a: string)
    ensures !LexLess(a, a)
  {
    if |a| > 0 {
      LexLessIrreflexive(a[1..]);
    }
  }

  lemma {:induction false} LexLessTransitive(a: string, b: string, c: string)
    requires LexLess(a, b) && LexLess(b, c)
    ensures LexLess(a, c)
  {
    if |a| > 0 && a[0] == b[0] && b[0] == c[0] {
      LexLessTransitive(a[1..], b[1..], c[1..]);
    }
  }

  lemma {:induction false} LexLessTotal(a: string, b: string)
    ensures a == b || LexLess(a, b) || LexLess(b, a)
  {
    if |a| > 0 && |b| > 0 && a[0] == b[0] {
      LexLessTotal(a[1..], b[1..]);
      if a[1..] == b[1..] {
        assert a == [a[0]] + a[1..] && b == [b[0]] + b[1..];
      }
    }
  }
}

=== FILE: titles.dfy ===
/** The HTML scraper's record builder (`fetch` and `parse_datetime_range`):
    one record per `article`/`div` whose normalized text is a maintenance
    title, fields read off the title, the first record per id kept. */
module TitleRecords {
  import opened Wrappers
  import opened Text
  import opened Notice
  import Keyed

  /** The source URL every record of this scraper points at. */
  const SourceUrl: string := "https://kplc.co.ke/customer-support#powerschedule"

  /** Longest record id: the title cut to this many characters. */
  const MaxIdLength: nat := 120

  /** The four searches over a title: group 1 of the date pattern, groups 1
      and 3 (start and end time) of the time-range pattern, group 1 of the
      `Region:` and `Area(s):` patterns. */
  datatype Matchers = Matchers(
    date: string -> Option<string>,
    timeRange: string -> Option<(string, string)>,
    region: string -> Option<string>,
    areas: string -> Option<string>)

  /** `datetime.strptime` with the two formats tried, each followed by
      `.isoformat()`; `None` where `strptime` raises. */
  datatype Clock = Clock(
    twelveHour: string -> Option<string>,
    twentyFourHour: string -> Option<string>)

  /** `s.replace(from, to)` for single characters. */
  function ReplaceChar(s: string, from: char, to: char): (r: string)
    ensures |r| == |s|
    ensures forall i :: 0 <= i < |s| ==> r[i] == (if s[i] == from then to else s[i])
  {
    seq(|s|, i requires 0 <= i < |s| => if s[i] == from then to else s[i])
  }

  /** The captured date with every `.` and then every `-` turned into `/`. */
  function SlashDate(d: string): string {
    ReplaceChar(ReplaceChar(d, '.', '/'), '-', '/')
  }

  /** One endpoint: the 12-hour format with AM/PM, else the 24-hour one. */
  function ParseEndpoint(c: Clock, s: string): Option<string> {
    match c.twelveHour(s)
    case Some(iso) => Some(iso)
    case None => c.twentyFourHour(s)
  }

  /** `parse_datetime_range(text)`: start and end in ISO form, or `None`. */
  function ParseDatetimeRange(m: Matchers, c: Clock, text: string): (Option<string>, Option<string>) {
    match (m.date(text), m.timeRange(text))
    case (Some(d), Some((st, en))) =>
      var ds := SlashDate(d);
      (ParseEndpoint(c, ds + " " + st), ParseEndpoint(c, ds + " " + en))
    case _ => (None, None)
  }

  /** The title test of `fetch`. */
  predicate IsMaintenanceTitle(title: string) {
    title != [] &&
    (Contains(title, "Power Maintenance Notice") || Contains(Upper(title), "SPECIAL POWER SUPPLY INTERRUPTION"))
  }

  /** The pieces of the title between hyphens, each stripped, the blank
      ones dropped. */
  function HyphenParts(title: string): (parts: seq<string>)
    ensures forall k :: 0 <= k < |parts| ==> parts[k] != []
  {
    StrippedNonEmpty(SplitOn(title, '-'))
  }

  function StrippedNonEmpty(ps: seq<string>): (r: seq<string>)
    ensures forall k :: 0 <= k < |r| ==> r[k] != [] && exists j :: 0 <= j < |ps| && r[k] == Strip(ps[j])
    ensures |r| <= |ps|
  {
    if |ps| == 0 then []
    else
      var init := StrippedNonEmpty(ps[..|ps| - 1]);
      var t := Strip(ps[|ps| - 1]);
      if t == [] then init else init + [t]
  }

  /** The region: the normalized `Region:` capture when it is non-empty,
      else the second hyphen-separated part of the title, else `""`. */
  function RegionOf(m: Matchers, title: string): string {
    var captured := match m.region(title) case Some(r) => NormalizeSpace(r) case None => [];
    if captured != [] then captured
    else
      var parts := HyphenParts(title);
      if |parts| >= 2 then parts[1] else []
  }

  /** The area: the normalized `Area(s):` capture, else the placeholder. */
  function AreaOf(m: Matchers, title: string): string {
    var captured := match m.areas(title) case Some(a) => NormalizeSpace(a) case None => [];
    if captured != [] then captured else PlannedMaintenance
  }

  /** The record one article yields, if its text is a maintenance title. */
  function TitleRecord(m: Matchers, c: Clock, createdAt: string, text: string): Option<Outage> {
    var title := NormalizeSpace(text);
    if title == [] || !IsMaintenanceTitle(title) then None
    else
      var (start, end) := ParseDatetimeRange(m, c, title);
      Some(Outage(Take(NormalizeSpace(title), MaxIdLength), RegionOf(m, title), AreaOf(m, title),
                  start.GetOr([]), end.GetOr([]), SourceUrl, createdAt))
  }

  /** One article's step of the scraping loop, for fixed searches, clock
      and timestamp. */
  function Builder(m: Matchers, c: Clock, createdAt: string): string -> Option<Outage> {
    t => TitleRecord(m, c, createdAt, t)
  }

  /** The records of the articles, in document order, before dedup. */
  function ArticleRecords(m: Matchers, c: Clock, createdAt: string, texts: seq<string>): seq<Outage> {
    Collect(texts, Builder(m, c, createdAt))
  }

  /** The positions of the articles that yield a record, in document order. */
  function RecordArticles(m: Matchers, c: Clock, createdAt: string, texts: seq<string>): seq<nat> {
    SomeIndices(texts, Builder(m, c, createdAt))
  }

  /** `fetch()` given the text of each `article` and `div` element. */
  function Fetch(m: Matchers, c: Clock, createdAt: string, texts: seq<string>): seq<Outage> {
    Keyed.FirstByKey(ArticleRecords(m, c, createdAt, texts), IdOf)
  }

  // ---------------------------------------------------------------------------
  // parse_datetime_range

  /** Both-or-nothing: without a date match or without a time-range match
      neither endpoint is produced. */
  lemma RangeNeedsDateAndTime(m: Matchers, c: Clock, text: string)
    requires m.date(text).None? || m.timeRange(text).None?
    ensures ParseDatetimeRange(m, c, text) == (None, None)
  {
  }

  /** The date handed to `strptime` has every `.` and `-` rewritten to `/`
      and nothing else changed. */
  lemma SlashDateSpec(d: string)
    ensures |SlashDate(d)| == |d|
    ensures '.' !in SlashDate(d) && '-' !in SlashDate(d)
    ensures forall i :: 0 <= i < |d| ==>
      SlashDate(d)[i] == (if d[i] == '.' || d[i] == '-' then '/' else d[i])
  {
  }

  /** Each endpoint is the 12-hour parse of `date start` (or `date end`) when
      that succeeds, else the 24-hour parse, else `None`; an endpoint depends
      only on its own time text, so one failing leaves the other as it is. */
  lemma EndpointsIndependent(m: Matchers, c: Clock, text: string)
    requires m.date(text).Some? && m.timeRange(text).Some?
    ensures var ds := SlashDate(m.date(text).value);
      var (st, en) := m.timeRange(text).value;
      && ParseDatetimeRange(m, c, text).0 ==
           (if c.twelveHour(ds + " " + st).Some? then c.twelveHour(ds + " " + st)
            else c.twentyFourHour(ds + " " + st))
      && ParseDatetimeRange(m, c, text).1 ==
           (if c.twelveHour(ds + " " + en).Some? then c.twelveHour(ds + " " + en)
            else c.twentyFourHour(ds + " " + en))
  {
  }

  // ---------------------------------------------------------------------------
  // one article

  lemma {:induction false} StrippedNonEmptyKeepsOrder(ps: seq<string>, i: nat)
    requires i < |ps| && Strip(ps[i]) != []
    requires forall j :: 0 <= j < i ==> Strip(ps[j]) == []
    ensures |StrippedNonEmpty(ps)| > 0 && StrippedNonEmpty(ps)[0] == Strip(ps[i])
    decreases |ps|
  {
    if i < |ps| - 1 {
      StrippedNonEmptyKeepsOrder(ps[..|ps| - 1], i);
    } else {
      assert StrippedNonEmpty(ps[..|ps| - 1]) == [] by {
        StrippedNonEmptyAllBlank(ps[..|ps| - 1]);
      }
    }
  }

  lemma {:induction false} StrippedNonEmptyAllBlank(ps: seq<string>)
    requires forall j :: 0 <= j < |ps| ==> Strip(ps[j]) == []
    ensures StrippedNonEmpty(ps) == []
  {
    if |ps| > 0 {
      StrippedNonEmptyAllBlank(ps[..|ps| - 1]);
    }
  }

  /** The region rule: the normalized `Region:` capture when non-empty;
      otherwise, when the title has at least two non-blank hyphen-separated
      parts, the second of them (stripped); otherwise empty. */
  lemma RegionRule(m: Matchers, title: string)
    ensures m.region(title).Some? && NormalizeSpace(m.region(title).value) != [] ==>
      RegionOf(m, title) == NormalizeSpace(m.region(title).value)
    ensures (m.region(title).None? || NormalizeSpace(m.region(title).value) == []) ==>
      RegionOf(m, title) == (if |HyphenParts(title)| >= 2 then HyphenParts(title)[1] else [])
    ensures RegionOf(m, title) != [] && (m.region(title).None? || NormalizeSpace(m.region(title).value) == []) ==>
      exists j :: 0 <= j < |SplitOn(title, '-')| && RegionOf(m, title) == Strip(SplitOn(title, '-')[j])
  {
  }

  /** The area is never empty: the normalized `Area(s):` capture, or
      "Planned maintenance" when that is missing or blank. */
  lemma AreaRule(m: Matchers, title: string)
    ensures AreaOf(m, title) != []
    ensures m.areas(title).Some? && NormalizeSpace(m.areas(title).value) != [] ==>
      AreaOf(m, title) == NormalizeSpace(m.areas(title).value)
    ensures m.areas(title).None? || NormalizeSpace(m.areas(title).value) == [] ==>
      AreaOf(m, title) == PlannedMaintenance
  {
  }

  /** An article yields a record exactly when its normalized text is a
      maintenance title; the record's id is that title cut to 120
      characters, so never longer than 120, and a prefix of the title. */
  lemma TitleRecordSpec(m: Matchers, c: Clock, createdAt: string, text: string)
    ensures TitleRecord(m, c, createdAt, text).Some? <==> IsMaintenanceTitle(NormalizeSpace(text))
    ensures TitleRecord(m, c, createdAt, text).Some? ==>
      var o := TitleRecord(m, c, createdAt, text).value;
      && o.id == Take(NormalizeSpace(text), MaxIdLength)
      && |o.id| <= MaxIdLength
      && o.sourceUrl == SourceUrl
      && o.createdAt == createdAt
      && o.area != []
  {
    NormalizeSpaceIdempotent(text);
    if TitleRecord(m, c, createdAt, text).Some? {
      AreaRule(m, NormalizeSpace(text));
    }
  }

  // ---------------------------------------------------------------------------
  // the whole fetch

  /** Every built record comes from one qualifying article: its id is at
      most 120 characters and it points at the schedule page. The records
      follow article order: record `i` is the record of the `i`-th article
      that yields one, so the first-wins dedup keeps the record of the
      earliest such article. */
  lemma ArticleRecordsSpec(m: Matchers, c: Clock, createdAt: string, texts: seq<string>)
    ensures forall o :: o in ArticleRecords(m, c, createdAt, texts) ==>
      |o.id| <= MaxIdLength && o.sourceUrl == SourceUrl && o.createdAt == createdAt &&
      exists k :: 0 <= k < |texts| && TitleRecord(m, c, createdAt, texts[k]) == Some(o)
    ensures |ArticleRecords(m, c, createdAt, texts)| <= |texts|
    ensures var rs := ArticleRecords(m, c, createdAt, texts); var ix := RecordArticles(m, c, createdAt, texts);
      && |ix| == |rs|
      && (forall i :: 0 <= i < |ix| ==> ix[i] < |texts| && TitleRecord(m, c, createdAt, texts[ix[i]]) == Some(rs[i]))
      && (forall i, j :: 0 <= i < j < |ix| ==> ix[i] < ix[j])
  {
    var f := Builder(m, c, createdAt);
    CollectSpec(texts, f);
    CollectInOrder(texts, f);
    forall o | o in ArticleRecords(m, c, createdAt, texts)
      ensures |o.id| <= MaxIdLength && o.sourceUrl == SourceUrl && o.createdAt == createdAt
    {
      var k :| 0 <= k < |texts| && f(texts[k]) == Some(o);
      TitleRecordSpec(m, c, createdAt, texts[k]);
    }
  }

  /** No qualifying article is lost: every article that yields a record has
      that record among the built ones. */
  lemma ArticleRecordsComplete(m: Matchers, c: Clock, createdAt: string, texts: seq<string>)
    ensures forall k :: 0 <= k < |texts| && TitleRecord(m, c, createdAt, texts[k]).Some? ==>
      TitleRecord(m, c, createdAt, texts[k]).value in ArticleRecords(m, c, createdAt, texts)
  {
    CollectSpec(texts, Builder(m, c, createdAt));
  }

  /** Every article that yields a record has its id among the ids `fetch`
      returns, even when an earlier article's record took that id. */
  lemma FetchCoversTitles(m: Matchers, c: Clock, createdAt: string, texts: seq<string>)
    ensures var rs := Fetch(m, c, createdAt, texts);
      forall k :: 0 <= k < |texts| && TitleRecord(m, c, createdAt, texts[k]).Some? ==>
        exists i :: 0 <= i < |rs| && rs[i].id == TitleRecord(m, c, createdAt, texts[k]).value.id
  {
    var all := ArticleRecords(m, c, createdAt, texts);
    var rs := Fetch(m, c, createdAt, texts);
    ArticleRecordsComplete(m, c, createdAt, texts);
    Keyed.FirstByKeyKeys(all, IdOf);
    forall k | 0 <= k < |texts| && TitleRecord(m, c, createdAt, texts[k]).Some?
      ensures exists i :: 0 <= i < |rs| && rs[i].id == TitleRecord(m, c, createdAt, texts[k]).value.id
    {
      var o := TitleRecord(m, c, createdAt, texts[k]).value;
      var a :| 0 <= a < |all| && all[a] == o;
      assert IdOf(all[a]) in Keyed.KeysOf(all, IdOf);
      var i :| 0 <= i < |rs| && IdOf(rs[i]) == o.id;
    }
  }

  /** `fetch` keeps the first record per id, in document order: its ids are
      pairwise distinct, every id of a qualifying article is represented,
      and the record kept for an id is the first one built with it. */
  lemma FetchFirstWins(m: Matchers, c: Clock, createdAt: string, texts: seq<string>)
    ensures var all := ArticleRecords(m, c, createdAt, texts);
      var rs := Fetch(m, c, createdAt, texts);
      && (forall i, j :: 0 <= i < j < |rs| ==> rs[i].id != rs[j].id)
      && Keyed.KeysOf(rs, IdOf) == Keyed.KeysOf(all, IdOf)
      && (forall i :: 0 <= i < |rs| ==>
            rs[i].id in Keyed.KeysOf(all, IdOf) && rs[i] == Keyed.FirstWithKey(all, IdOf, rs[i].id))
      && Keyed.IsSubsequence(rs, all)
      && Keyed.InFirstOrder(rs, all, IdOf)
  {
    var all := ArticleRecords(m, c, createdAt, texts);
    var rs := Fetch(m, c, createdAt, texts);
    Keyed.FirstByKeyKeys(all, IdOf);
    Keyed.FirstByKeyKeepsFirst(all, IdOf);
    Keyed.FirstByKeyOrder(all, IdOf);
    Keyed.FirstByKeyFirstOrder(all, IdOf);
    forall i, j | 0 <= i < j < |rs|
      ensures rs[i].id != rs[j].id
    {
      assert IdOf(rs[i]) != IdOf(rs[j]);
    }
    forall i | 0 <= i < |rs|
      ensures rs[i].id in Keyed.KeysOf(all, IdOf) && rs[i] == Keyed.FirstWithKey(all, IdOf, rs[i].id)
    {
      assert IdOf(rs[i]) == rs[i].id;
    }
  }

  /** Every record `fetch` returns comes from a qualifying article: its id is
      at most 120 characters and it points at the schedule page. */
  lemma FetchRecordsFromTitles(m: Matchers, c: Clock, createdAt: string, texts: seq<string>)
    ensures var rs := Fetch(m, c, createdAt, texts);
      forall o :: o in rs ==>
        |o.id| <= MaxIdLength && o.sourceUrl == SourceUrl && o.createdAt == createdAt &&
        exists k :: 0 <= k < |texts| && TitleRecord(m, c, createdAt, texts[k]) == Some(o)
  {
    Keyed.FirstByKeyMembers(ArticleRecords(m, c, createdAt, texts), IdOf);
    ArticleRecordsSpec(m, c, createdAt, texts);
  }
}

=== FILE: training.dfy ===
/** The data path of the trainer's `main` up to the split: prepare the frame,
    build one window of sequence rows per row, read the labels, and cut all
    row-aligned arrays at one index. Scaling is not modelled, so the tabular
    part is the raw tabular row. */
module Training {
  import opened Columns
  import opened Windowing

  /** Row `i` of the tabular columns, in their selected order. */
  function TabularRow(f: Frame, i: nat): (row: seq<real>)
    requires f.WellFormed() && i < f.height && HasAll(f, Tabular)
    ensures |row| == |Tabular|
    ensures forall j :: 0 <= j < |Tabular| ==> row[j] == f.columns[Tabular[j]][i]
  {
    seq(|Tabular|, j requires 0 <= j < |Tabular| => f.columns[Tabular[j]][i])
  }

  /** What `main` relies on after preparation: every column it reads. */
  ghost predicate Prepared(g: Frame) {
    g.WellFormed() && Target in g.columns && HasAll(g, Tabular) && HasAll(g, SequenceBase)
  }

  /** The row-aligned arrays `main` builds from a prepared frame. */
  function Inputs(g: Frame, L: int): (d: Dataset<seq<real>, seq<seq<real>>>)
    requires Prepared(g)
  {
    Dataset(seq(g.height, i requires 0 <= i < g.height => TabularRow(g, i)),
            Windows(SequenceRows(g), L),
            Labels(g))
  }

  /** Preparing any well-formed frame gives every column `main` reads. */
  lemma PrepareGivesPrepared(f: Frame)
    requires f.WellFormed()
    ensures Prepared(Prepare(f)) && Prepare(f).height == f.height
  {
    PrepareSpec(f);
  }

  /** `main`'s inputs, split at `split_idx`. */
  function SplitInputs(g: Frame, L: int, idx: nat): (Dataset<seq<real>, seq<seq<real>>>, Dataset<seq<real>, seq<seq<real>>>)
    requires Prepared(g)
  {
    ChronoSplit(Inputs(g, L), idx)
  }

  /** The arrays have one entry per row, each tabular row has 18 values,
      and each window is an `L` by 14 block whose last row is the sequence
      row of its own row. */
  lemma {:induction false} InputsShape(g: Frame, L: int)
    requires Prepared(g) && L >= 1
    ensures var d := Inputs(g, L);
      && d.Aligned() && |d.tab| == g.height
      && (forall i :: 0 <= i < g.height ==> |d.tab[i]| == 18)
      && (forall i :: 0 <= i < g.height ==>
            |d.seqs[i]| == L && d.seqs[i][L - 1] == SequenceRow(g, i) &&
            forall k :: 0 <= k < L ==> |d.seqs[i][k]| == 14)
  {
    var d := Inputs(g, L);
    var rows := SequenceRows(g);
    forall i | 0 <= i < g.height
      ensures |d.seqs[i]| == L && d.seqs[i][L - 1] == SequenceRow(g, i) &&
        forall k :: 0 <= k < L ==> |d.seqs[i][k]| == 14
    {
      assert d.seqs[i] == Window(rows, i, L);
      WindowShape(rows, i, L);
      forall k | 0 <= k < L
        ensures |d.seqs[i][k]| == 14
      {
        var j := L - 1 - k;
        assert d.seqs[i][k] == Back(rows, i, j);
        if i - j >= 0 {
          assert d.seqs[i][k] == SequenceRow(g, i - j);
        } else {
          assert d.seqs[i][k] == SequenceRow(g, 0);
        }
      }
    }
  }

  /** The split cuts tabular rows, windows and labels at the same row: the
      first `idx` rows train and the rest test, each half aligned, and the
      training windows are built from the training rows alone. */
  lemma {:induction false} SplitInputsSpec(g: Frame, L: int, idx: nat)
    requires Prepared(g) && idx <= g.height
    ensures var (train, test) := SplitInputs(g, L, idx);
      && train.Aligned() && test.Aligned()
      && |train.tab| == idx && |test.tab| == g.height - idx
      && train.seqs == Windows(SequenceRows(g)[..idx], L)
  {
    var d := Inputs(g, L);
    assert d.Aligned();
    ChronoSplitAligned(d, idx);
    TrainWindowsUseTrainRows(SequenceRows(g), L, idx);
  }
}

=== FILE: windows.dfy ===
/** The trainer's sequence windows and its chronological split: one window of
    `L` consecutive rows per row, ending at that row and left-padded with
    copies of the first row, and a split of every row-aligned array at one
    index into a training prefix and a test suffix. */
module Windowing {

  /** `n` copies of `x`. */
  function Fill<T>(x: T, n: nat): (r: seq<T>)
    ensures |r| == n
    ensures forall k :: 0 <= k < n ==> r[k] == x
  {
    seq(n, _ => x)
  }

  /** `n` copies of the one row of `a`, or nothing when `a` has no row
      (numpy's row repeat, for at most one row). */
  function Repeat<T>(a: seq<T>, n: nat): (r: seq<T>)
    requires |a| <= 1
    ensures |r| == |a| * n
    ensures a != [] ==> r == Fill(a[0], n)
  {
    if a == [] then [] else Fill(a[0], n)
  }

  /** Where the window of row `i` starts: `L - 1` rows back, clamped at
      row 0. */
  function WindowStart(i: nat, L: int): (start: nat)
    ensures start <= i + 1 || L < 0
  {
    if i - L + 1 > 0 then i - L + 1 else 0
  }

  /** Python's `rows[start:stop]` for `0 <= start` and `stop <= len(rows)`:
      empty once `start` passes `stop`. */
  function Slice<T>(rows: seq<T>, start: nat, stop: nat): (r: seq<T>)
    requires stop <= |rows|
    ensures start <= stop ==> r == rows[start..stop]
    ensures start > stop ==> r == []
  {
    if start <= stop then rows[start..stop] else []
  }

  /** The window of row `i` for sequence length `L`: the
      rows from `WindowStart(i, L)` through `i`, and when that is fewer than
      `L` rows, `L - len` copies of its first row in front. */
  function Window<T>(rows: seq<T>, i: nat, L: int): seq<T>
    requires i < |rows|
  {
    var w := Slice(rows, WindowStart(i, L), i + 1);
    if |w| < L then
      var short := (L - |w|) as nat;
      Repeat(Take1(w), short) + w
    else w
  }

  /** The first row of `w`, as a sequence of at most one row. */
  function Take1<T>(w: seq<T>): (r: seq<T>)
    ensures |r| <= 1
    ensures w != [] ==> r == [w[0]]
  {
    if w == [] then [] else w[..1]
  }

  /** The windows of all rows, in row order. */
  function Windows<T>(rows: seq<T>, L: int): (ws: seq<seq<T>>)
    ensures |ws| == |rows|
  {
    seq(|rows|, i requires 0 <= i < |rows| => Window(rows, i, L))
  }

  // ---------------------------------------------------------------------------
  // the shape of one window

  /** Row `i` reached back `j` places, clamped at row 0. */
  function Back<T>(rows: seq<T>, i: nat, j: nat): T
    requires i < |rows|
  {
    if i - j >= 0 then rows[i - j] else rows[0]
  }

  /** With no full history (`i < L - 1`) the window is `L - 1 - i` copies of
      row 0 followed by rows `0..i`. */
  lemma WindowPadded<T>(rows: seq<T>, i: nat, L: int)
    requires i < |rows| && i < L - 1
    ensures Window(rows, i, L) == Fill(rows[0], (L - 1 - i) as nat) + rows[..i + 1]
  {
    var w := Slice(rows, WindowStart(i, L), i + 1);
    assert w == rows[..i + 1];
  }

  /** With full history (`i >= L - 1`, `L >= 1`) the window is exactly rows
      `i - L + 1 .. i`, with no padding. */
  lemma WindowFull<T>(rows: seq<T>, i: nat, L: int)
    requires i < |rows| && L >= 1 && i >= L - 1
    ensures Window(rows, i, L) == rows[i - L + 1..i + 1]
  {
  }

  /** A non-positive sequence length gives an empty window (the slice is
      empty and nothing is padded). */
  lemma WindowNonPositive<T>(rows: seq<T>, i: nat, L: int)
    requires i < |rows| && L <= 0
    ensures Window(rows, i, L) == []
  {
  }

  /** The window as a whole: for `L >= 1` it has exactly `L` rows and its
      entry `k` is row `i` reached back `L - 1 - k` places, clamped at row 0;
      in particular it ends with row `i`. */
  lemma {:induction false} WindowShape<T>(rows: seq<T>, i: nat, L: int)
    requires i < |rows| && L >= 1
    ensures |Window(rows, i, L)| == L
    ensures forall k :: 0 <= k < L ==> Window(rows, i, L)[k] == Back(rows, i, L - 1 - k)
    ensures Window(rows, i, L)[L - 1] == rows[i]
  {
    var w := Window(rows, i, L);
    if i < L - 1 {
      WindowPadded(rows, i, L);
      var pad := (L - 1 - i) as nat;
      forall k | 0 <= k < L
        ensures w[k] == Back(rows, i, L - 1 - k)
      {
        if k < pad {
          assert w[k] == rows[0];
        } else {
          assert w[k] == rows[k - pad];
        }
      }
    } else {
      WindowFull(rows, i, L);
    }
  }

  /** Consecutive windows slide by one row: dropping the oldest row of window
      `i - 1` and appending row `i` gives window `i`. */
  lemma {:induction false} WindowSlides<T>(rows: seq<T>, i: nat, L: int)
    requires 0 < i < |rows| && L >= 1
    ensures Window(rows, i, L) == Window(rows, i - 1, L)[1..] + [rows[i]]
  {
    var prev := Window(rows, i - 1, L);
    var next := Window(rows, i, L);
    WindowShape(rows, i, L);
    WindowShape(rows, i - 1, L);
    var slid := prev[1..] + [rows[i]];
    assert |slid| == L;
    forall k | 0 <= k < L
      ensures next[k] == slid[k]
    {
      if k < L - 1 {
        assert slid[k] == prev[k + 1] == Back(rows, i - 1, L - 2 - k);
      }
    }
  }

  /** A window reads no row after its own: the windows of the first `n`
      rows are the same whether or not the later rows exist. */
  lemma {:induction false} WindowsOfPrefix<T>(rows: seq<T>, n: nat, L: int)
    requires n <= |rows|
    ensures Windows(rows, L)[..n] == Windows(rows[..n], L)
  {
    var a := Windows(rows, L)[..n];
    var b := Windows(rows[..n], L);
    forall i | 0 <= i < n
      ensures a[i] == b[i]
    {
      assert Slice(rows, WindowStart(i, L), i + 1) == Slice(rows[..n], WindowStart(i, L), i + 1);
    }
  }

  // ---------------------------------------------------------------------------
  // the chronological split

  /** The prefix of `s` before `idx` and the rest, with `idx` clamped at
      `|s|` as Python slicing does. */
  function SplitAt<T>(s: seq<T>, idx: nat): (parts: (seq<T>, seq<T>))
    ensures parts.0 + parts.1 == s
    ensures |parts.0| == if idx <= |s| then idx else |s|
  {
    if idx <= |s| then (s[..idx], s[idx..]) else (s, [])
  }

  /** The arrays the split is applied to, aligned row by row: tabular
      features, windows and labels. */
  datatype Dataset<A, W> = Dataset(tab: seq<A>, seqs: seq<W>, y: seq<int>)
  {
    predicate Aligned() {
      |tab| == |seqs| == |y|
    }
  }

  /** The chronological split: one index cuts all three arrays. */
  function ChronoSplit<A, W>(d: Dataset<A, W>, idx: nat): (Dataset<A, W>, Dataset<A, W>) {
    (Dataset(SplitAt(d.tab, idx).0, SplitAt(d.seqs, idx).0, SplitAt(d.y, idx).0),
     Dataset(SplitAt(d.tab, idx).1, SplitAt(d.seqs, idx).1, SplitAt(d.y, idx).1))
  }

  /** The split keeps rows aligned: training row `k` of every array comes
      from input row `k`, test row `k` from input row `idx + k`; each half
      is aligned, and the halves put back together give the input. */
  lemma ChronoSplitAligned<A, W>(d: Dataset<A, W>, idx: nat)
    requires d.Aligned() && idx <= |d.tab|
    ensures var (train, test) := ChronoSplit(d, idx);
      && train.Aligned() && test.Aligned()
      && |train.tab| == idx && |test.tab| == |d.tab| - idx
      && train.tab + test.tab == d.tab && train.seqs + test.seqs == d.seqs && train.y + test.y == d.y
      && (forall k :: 0 <= k < idx ==>
            train.tab[k] == d.tab[k] && train.seqs[k] == d.seqs[k] && train.y[k] == d.y[k])
      && (forall k :: 0 <= k < |test.tab| ==>
            test.tab[k] == d.tab[idx + k] && test.seqs[k] == d.seqs[idx + k] && test.y[k] == d.y[idx + k])
  {
  }

  /** No training window reads a test row: the training windows are the
      windows of the training rows alone. */
  lemma {:induction false} TrainWindowsUseTrainRows<T>(rows: seq<T>, L: int, idx: nat)
    requires idx <= |rows|
    ensures SplitAt(Windows(rows, L), idx).0 == Windows(rows[..idx], L)
  {
    WindowsOfPrefix(rows, idx, L);
  }

  /** Test window `k` has `L` rows and ends at input row `idx + k`. */
  lemma {:induction false} TestWindowsEndAtTheirRow<T>(rows: seq<T>, L: int, idx: nat)
    requires idx <= |rows| && L >= 1
    ensures forall k :: 0 <= k < |rows| - idx ==>
      |SplitAt(Windows(rows, L), idx).1[k]| == L && SplitAt(Windows(rows, L), idx).1[k][L - 1] == rows[idx + k]
  {
    var test := SplitAt(Windows(rows, L), idx).1;
    forall k | 0 <= k < |rows| - idx
      ensures |test[k]| == L && test[k][L - 1] == rows[idx + k]
    {
      var i := idx + k;
      assert test[k] == Windows(rows, L)[i] == Window(rows, i, L);
      WindowShape(rows, i, L);
    }
  }
}

=== FILE: wrappers.dfy ===
/** Optional values: the `None` a Python regex search or parser returns on failure. */
module Wrappers {

  datatype Option<+T> = None | Some(value: T) {

    /** The value, or `default` when there is none (Python's `x or default`). */
    function GetOr(default: T): T {
      match this
      case Some(v) => v
      case None => default
    }
  }

  /** The values `f` produces over `xs`, in order, the `None`s skipped: a
      loop that appends an item's result whenever there is one. */
  function Collect<A, B>(xs: seq<A>, f: A -> Option<B>): (ys: seq<B>)
    ensures |ys| <= |xs|
  {
    if |xs| == 0 then []
    else
      Collect(xs[..|xs| - 1], f) +
      match f(xs[|xs| - 1])
      case Some(y) => [y]
      case None => []
  }

  /** The positions of the items `f` produces a value for, in increasing
      order. */
  function SomeIndices<A, B>(xs: seq<A>, f: A -> Option<B>): seq<nat> {
    if |xs| == 0 then []
    else SomeIndices(xs[..|xs| - 1], f) + (if f(xs[|xs| - 1]).Some? then [|xs| - 1] else [])
  }

  /** The collected values keep the order of their items: value `i` is the
      result for the `i`-th item that has one, those items' positions
      strictly increase, and every item with a result is among them. */
  lemma {:induction false} CollectInOrder<A, B>(xs: seq<A>, f: A -> Option<B>)
    ensures var ys := Collect(xs, f); var ix := SomeIndices(xs, f);
      && |ix| == |ys|
      && (forall i :: 0 <= i < |ix| ==> ix[i] < |xs| && f(xs[ix[i]]) == Some(ys[i]))
      && (forall i, j :: 0 <= i < j < |ix| ==> ix[i] < ix[j])
      && (forall k :: 0 <= k < |xs| && f(xs[k]).Some? ==> k in ix)
  {
    if |xs| > 0 {
      var init := xs[..|xs| - 1];
      CollectInOrder(init, f);
      var ys0, ix0 := Collect(init, f), SomeIndices(init, f);
      var ys, ix := Collect(xs, f), SomeIndices(xs, f);
      forall i | 0 <= i < |ix|
        ensures ix[i] < |xs| && f(xs[ix[i]]) == Some(ys[i])
      {
        if i < |ix0| {
          assert ix[i] == ix0[i] && ys[i] == ys0[i];
          assert xs[ix0[i]] == init[ix0[i]];
        }
      }
      forall k | 0 <= k < |xs| && f(xs[k]).Some?
        ensures k in ix
      {
        if k < |init| {
          assert init[k] == xs[k];
          assert k in ix0;
        }
      }
    }
  }

  /** Nothing is invented and nothing is lost: every collected value is the
      result for some item, and every item's result is collected. */
  lemma {:induction false} CollectSpec<A, B>(xs: seq<A>, f: A -> Option<B>)
    ensures forall y :: y in Collect(xs, f) ==> exists k :: 0 <= k < |xs| && f(xs[k]) == Some(y)
    ensures forall k :: 0 <= k < |xs| && f(xs[k]).Some? ==> f(xs[k]).value in Collect(xs, f)
  {
    if |xs| > 0 {
      var init := xs[..|xs| - 1];
      CollectSpec(init, f);
      assert forall k :: 0 <= k < |init| ==> init[k] == xs[k];
    }
  }
}
